=== FILE: README.md ===
# rsync.net configuration scanner and helpers, in Dafny

This project models two parts of the rsync.net daemon (a C# port of rsync).

**The `Configuration` class** (`Configuration.cs`):
- `LoadParm` reads the daemon's configuration file in one forward pass.
  - Blank lines and `;` or `#` comments are skipped.
  - A `[name]` header enters a module, re-using an existing module of that name.
  - A `key = value` line sets a field of the current module, or a global setting (`port`, `address`, `log file`) when no module has been entered.
  - Lines with two or more `=` are dropped.
  - A line with no `=` makes the load fail, and so does a port that is not a 32-bit number.
- The registry lookups `GetNumberModule` and `GetModule`.
- The per-field accessors.
- The defaults of a new `Module`.

**The pure helpers of `Util.cs`**: `S_ISDIR`, `FindColon`, `CleanFileName`, `Ns`, `DeleteLastElement`, `DeleteFirstElement`, `MemoryCompare`, `MemoryCopy`, `CompareModificationTime`, `Coaleced` and `IsBlank`.

How the model is built:
- The load is a fold over the file's lines, in `Configuration.Run`. Its state is `Scan`, and its context is `Global | InModule(i)`.
- C# `null` is `Option.None`.
- A string is a sequence of Unicode scalar values (Dafny's `char`). .NET counts UTF-16 code units instead. On text without characters above U+FFFF the two agree. The members whose results can differ are listed under Left out.
- A method that can raise returns a `Completion`: either `Returns(value)` or `Throws(exception)`.
- The .NET string operations the code uses live in `Text`, with ordinal semantics.
- The section-header test is a parameter, `HeaderRule`:
  - `AsWritten` is the test in the source, which no line passes.
  - `Bracketed` is the evident intent.

  Facts are proved under both rules (see Findings).

Modules and files:

| file | module | contents |
|---|---|---|
| nullable.dfy | `Nullable` | `Option` (null) and `Completion` (return or raise) |
| text.dfy | `Text` | `Trim`, `Split`, `Replace`, `ToLower`, `Path.GetFileName`, `Convert.ToInt32` |
| util.dfy | `Util` | the `Util.cs` helpers |
| registry.dfy | `Registry` | `Module`, `GetNumberModule`, `GetModule`, the accessors |
| configuration.dfy | `Configuration` | line classification, key rules, `LoadParm` |
| load_properties.dfy | `LoadProperties` | properties of the scanner under both header tests |
| reload.dfy | `Reload` | loading the same file twice changes nothing |
| scenarios.dfy | `Scenarios` | whole loads of a small example file, and accessor reads after them |

## Model

| member | source | states |
|---|---|---|
| Configuration.LoadParm | Configuration.cs:179-314 | A missing file fails with `CantFind` and an unreadable one with `CantOpen`. A successful load keeps every existing module, by name and position, possibly adding more at the end; a null list is read as empty. It never writes the `LogFile` field. |
| Configuration.Run | Configuration.cs:202-302 | The read loop keeps its context pointing at an existing module. It only ever appends modules: every earlier module keeps its name and position. |
| Configuration.IsComment | Configuration.cs:210 | A trimmed line is skipped exactly when it is empty or its first character is ';' or '#'. |
| Configuration.IsHeader | Configuration.cs:212 | As written, no line is a header. Under the intended test, a header is a line whose first character is '[' and whose last is ']'. |
| Configuration.ClassifySorts | Configuration.cs:209-236 | A trimmed line is a comment, or else a header, or else it is sorted by its count of '=': none gives a missing value, two or more are skipped, and exactly one gives the trimmed text before and after that '='. |
| Configuration.Step | Configuration.cs:209-275 | One line of the read loop keeps the scan valid and only appends modules. It raises only at the missing value of a line without '=', or at a bad port outside every section. |
| Configuration.Enter | Configuration.cs:212-224 | A header enters a module of that name. A known name is re-entered at its first position (`GetNumberModule`) without touching the list; an unknown one is appended with the defaults and entered at the old count. Port, address and options are untouched. |
| Configuration.ModuleUpdate | Configuration.cs:235-265 | Module keys are lower-cased before matching. `path` turns every '\' of the value into '/' and keeps every other character. `comment`, `hosts allow`, `hosts deny` and `auth users` store the value as given. `read only` is false exactly for "false", and `write only` is true exactly for "true". `secrets file` keeps the longest separator-free suffix of the value. Each key changes only its own field; unknown keys change nothing; the name never changes. |
| Configuration.GlobalUpdate | Configuration.cs:274-298 | Global keys are matched as written. `port` fails exactly when the value is not a 32-bit number; otherwise it sets `Port` to the text and `RsyncPort` to the number. `address` sets `Address` and `BindAddress` to the same value. `log file` records the path only when it can be opened. Every other key changes nothing, and no key touches the modules or the context. |
| Configuration.Apply | Configuration.cs:210-298 | One classified line keeps the scan state valid, and never removes or renames a module. |
| LoadProperties.CommentLeavesStateUnchanged | Configuration.cs:209-210 | A line that is blank, or starts with ';' or '#', after trimming leaves the whole state unchanged. |
| LoadProperties.ClassifyRenderPair | Configuration.cs:230-236 | A `key = value` line with trimmed key and value reads back as exactly that key and value, under either header test. |
| LoadProperties.ClassifyNoEquals | Configuration.cs:230-236 | A line that is neither comment nor header and has no '=' reads as a line with no value. |
| LoadProperties.ClassifyRenderHeader | Configuration.cs:212-214 | Under the intended test, `[name]` is the header of `name`. Under the test as written, it is a line with no value. |
| LoadProperties.AsWrittenHasNoHeaders | Configuration.cs:212 | Under the test as written, no line whatever is a header. |
| LoadProperties.AsWrittenKeepsModules | Configuration.cs:212-228 | Under the test as written, a pass stays in the global context and returns the module list it was given. |
| LoadProperties.AsWrittenBracketLineFails | Configuration.cs:269-275 | Under the test as written, a `[name]` line with no '=' raises at the read of the missing value. |
| LoadProperties.ExtraEqualsChangesNothing | Configuration.cs:230-234 | A line with two or more '=' leaves the state unchanged, in either context. |
| LoadProperties.NoEqualsFails | Configuration.cs:230-236 | A non-comment, non-header line with no '=' fails the step, in either context. |
| LoadProperties.RunFailsOnNoEquals | Configuration.cs:307-310 | One line without a value anywhere in the file fails the whole pass. |
| LoadProperties.LoadFailsOnNoEquals | Configuration.cs:307-310 | Such a line fails the load, whatever the store held before. |
| LoadProperties.AsWrittenSectionFileFails | Configuration.cs:212 | Under the test as written, any file with a `[name]` line that has no '=' cannot be loaded. |
| LoadProperties.BracketedHeaderEnters | Configuration.cs:214-224 | Under the intended test, a header re-enters the first module of that name with the list unchanged, or appends a fresh module and enters it. |
| LoadProperties.BracketedHeaderName | Configuration.cs:214 | A header's name is the trimmed line without its leading '[' and trailing ']' characters; the name neither starts with '[' nor ends with ']'. |
| LoadProperties.ApplyKeepsNamesDistinct | Configuration.cs:216-224 | No step gives two modules the same name. |
| LoadProperties.RunKeepsNamesDistinct | Configuration.cs:202-224 | No pass gives two modules the same name. |
| LoadProperties.LoadKeepsModules | Configuration.cs:195-198 | A load keeps the existing list, with null read as empty, and only appends to it. Distinct names stay distinct. Under the test as written, the list comes back unchanged. |
| LoadProperties.ModuleLineTouchesOnlyCurrent | Configuration.cs:228-265 | Inside a module, a key/value line rewrites the current module alone. The context, the other modules and every global setting stay as they were. |
| LoadProperties.ModuleKeyIgnoresCase | Configuration.cs:235 | Two module keys that lower to the same text have the same effect. |
| LoadProperties.GlobalKeyIsCaseSensitive | Configuration.cs:274-276 | Any key that lowers to `port`, `address` or `log file` without being exactly that text changes nothing. |
| LoadProperties.MiscasedGlobalKeys | Configuration.cs:274-276 | "Port" and "ADDRESS" are two such keys. |
| LoadProperties.GlobalLineKeepsModules | Configuration.cs:267-298 | Outside every module, a key/value line fails exactly on a bad port. Otherwise it keeps the modules and the global context. |
| Reload.ReloadIsIdempotent | Configuration.cs:179-314 | Loading the same file again, from the store and options the first load left, succeeds and returns exactly the same store and options. |
| Reload.RunTracks | Configuration.cs:202-302 | Run side by side with a first pass, a second pass that starts from the final module names succeeds. Each setting either ends equal to the first pass's end, or was never written and keeps its starting value on both sides. |
| Reload.StepTracks | Configuration.cs:209-298 | The same holds for one line. |
| Reload.UpdateFieldWise | Configuration.cs:237-265 | A module line writes each field with a value that depends only on the key and the value, never on the module's previous settings. |
| Reload.FirstIndexAgrees | Configuration.cs:55-61 | The first index of a name depends only on the names up to it, so a header finds the same module in both passes. |
| Reload.EnterTracks | Configuration.cs:216-224 | On a header, both passes enter the same position. The second pass, which already has every name, appends nothing. |
| Registry.NewModule | Configuration.cs:317-333 | A new module has the given name, is read-only and not write-only, and has every other text field empty. |
| Registry.GetNumberModule | Configuration.cs:51-64 | The result is -1 exactly when no module has the name (case-sensitive). Otherwise it is the least position holding that name. |
| Registry.GetNumberModuleAppendFound | Configuration.cs:55-61 | Appending modules leaves the answer for a name already in the list unchanged. |
| Registry.GetNumberModuleAppendNew | Configuration.cs:55-61 | A name new to the list is found in the appended part, offset by the old length. |
| Registry.GetModuleAsWritten | Configuration.cs:71-81 | Null below 0 and above `Count`; the module at valid positions. `Count` itself raises. |
| Registry.GetModule | Configuration.cs:71-81 | With the guard corrected, there is a module exactly at the valid positions, and it is the one stored there. |
| Registry.GetModuleGuardDefect | Configuration.cs:75 | The two guards agree everywhere except at `Count`, where the one as written raises and the corrected one returns null. |
| Registry.GetModuleOfFoundNumber | Configuration.cs:216-218 | A position found by name is one where both guards agree and return the module of that name. |
| Registry.Located | Configuration.cs:92 | `GetModule(i)` followed by a member access, through the corrected guard. It gives the module at a valid position and a null dereference anywhere else. (Under the guard as written, position `Count` raises the list's index error instead; see Findings.) |
| Registry.GetModuleName | Configuration.cs:88-94 | The name of the module at a valid position, and a fault elsewhere. Looking that name up again leads to this position or an earlier one, and exactly here when names are distinct. |
| Registry.ModuleIsReadOnly | Configuration.cs:101-107 | Succeeds exactly at valid positions, with that module's read-only flag. |
| Registry.ModuleIsWriteOnly | Configuration.cs:114-120 | Succeeds exactly at valid positions, with that module's write-only flag. |
| Registry.GetHostsAllow | Configuration.cs:127-133 | Succeeds exactly at valid positions, with that module's allowed hosts. |
| Registry.GetHostsDeny | Configuration.cs:140-146 | Succeeds exactly at valid positions, with that module's denied hosts. |
| Registry.GetAuthUsers | Configuration.cs:153-159 | Succeeds exactly at valid positions, with that module's user list. |
| Registry.GetSecretsFile | Configuration.cs:166-172 | Succeeds exactly at valid positions, with that module's secrets file. |
| Registry.AccessorsByName | Configuration.cs:88-172 | With distinct names, reading a module by the number found for its name never faults, and every accessor returns that module's setting. |
| Registry.AccessorsOfMissingName | Configuration.cs:75-78 | A name the list lacks gives -1, and every accessor faults with a null dereference there. |
| Util.SIsDir | Util.cs:34-37 | True exactly when bit 15 of the mode is clear. |
| Util.FindColon | Util.cs:151-164 | The first ':' when no '/' precedes it. The result is -1 exactly when every ':' has a '/' somewhere before it. |
| Util.CleanFileName | Util.cs:121-134 | Without collapsing, the result is the "\\"-collapsed name minus its trailing run of '\', and it does not end in '\'. With collapsing, it raises exactly when fewer than two characters remain. Otherwise it keeps those two characters. After them, each run of k '.'s is cut to k % 2 of them and every other character stays, so no ".." is left; a name without ".." there is unchanged. |
| Util.CleanFileNameDropsDotDot | Util.cs:131 | "ab/../c" becomes "ab//c" when ".." is collapsed: the pair goes and both separators stay. |
| Util.CleanFileNameOfClean | Util.cs:121-134 | A name with nothing to collapse or trim comes back with only the run-by-run ".." reduction applied after its first two characters. |
| Util.CleanFileNameKeepsCleanNames | Util.cs:121-134 | A name with no "\\", no trailing '\' and (when collapsing) no ".." after its first two characters comes back unchanged. |
| Util.Ns | Util.cs:141-144 | "<NULL>" for null, the string itself otherwise. |
| Util.NsRoundTrip | Util.cs:141-144 | Reading back what `Ns` printed recovers the input, except that the string "<NULL>" and null print alike. |
| Util.DeleteLastElement | Util.cs:171-179 | Raises exactly on an empty array. Otherwise it returns one element fewer, and appending the dropped last element gives the input back. |
| Util.DeleteFirstElement | Util.cs:186-194 | Raises exactly on an empty array. Otherwise it returns one element fewer, and putting the dropped first element in front gives the input back. |
| Util.Difference | Util.cs:197-199 | The documented meaning of the comparison: 0 exactly when the runs are equal. Otherwise it is the difference of the first unequal bytes: the runs agree before that position and differ at it. It lies in [-255, 255]. |
| Util.DifferenceAntisymmetric | Util.cs:207-217 | Comparing the other way round negates the result. |
| Util.CompareFromInBounds | Util.cs:207-217 | Inside both arrays, the loop computes `Difference` of the two runs. |
| Util.MemoryCompare | Util.cs:207-217 | A length of 0 or less returns 0. Inside both arrays, the result is `Difference` of the runs and is 0 exactly when they are equal. A first position outside either array raises. A difference found before a run leaves its array is still returned. |
| Util.CompareStopsBeforeFault | Util.cs:209-214 | Comparing 5 bytes of [1] with [2] returns -1 without faulting: the first pair already differs. |
| Util.MemoryCopy | Util.cs:227-233 | Copies byte by byte until a position leaves either array, which raises. That happens exactly when the run does not fit. The bytes already written stay, every byte outside the written range is unchanged, and without overlap the written bytes are the source's. |
| Util.CompareModificationTime | Util.cs:242-258 | 0 exactly within the window. -1 exactly when the second time is later by more than the window. 1 exactly when it is not later and they differ by more than the window. |
| Util.CompareModificationTimeSwap | Util.cs:242-258 | With a non-negative window, swapping the times negates the verdict. With a negative one, equal times give 1. |
| Util.Coaleced | Util.cs:265-268 | The input (null read as "") is white space, then the result, then white space. The result has no white edge, and is empty exactly when the input is null or all white space. |
| Util.CoalecedIdempotent | Util.cs:265-268 | Coalescing twice is coalescing once. |
| Util.IsBlank | Util.cs:275-278 | True exactly for null or the empty string. |
| Util.BlankCoalescesEmpty | Util.cs:265-278 | Blank values coalesce to "". So do non-blank, all-white-space values, and no others. |
| Text.Trim | Configuration.cs:209 | The input is leading white space, the result, and trailing white space; the result has no white edge. |
| Text.TrimIdempotent | Configuration.cs:209 | Trimming twice is trimming once. |
| Text.TrimOfPadded | Configuration.cs:235-236 | Any white padding around a core without white edges trims back to the core. |
| Text.TrimEmpty | Util.cs:267 | Trimming leaves nothing exactly when the input is all white space. |
| Text.TrimStartChar | Configuration.cs:214 | Drops exactly the leading run of the character. |
| Text.TrimEndChar | Util.cs:128 | Drops exactly the trailing run of the character. The result is a prefix of the input that does not end in it. |
| Text.Lower | Configuration.cs:235 | Lower-cases each character in place. |
| Text.ReplaceChar | Configuration.cs:240 | Replaces every occurrence of one character and keeps the others. |
| Text.IndexOf | Util.cs:153 | -1 exactly when the character is absent; otherwise its first position. |
| Text.Split | Configuration.cs:230 | One more piece than separators. No piece holds a separator, and joining the pieces gives the input back. |
| Text.SplitJoin | Configuration.cs:230 | Splitting a join of separator-free pieces gives the pieces back. |
| Text.ReplaceAllKeeps | Util.cs:123 | A string in which the pattern occurs nowhere is left unchanged. |
| Text.ReplaceAllFirst | Util.cs:123 | Replacement keeps everything before the first occurrence, puts the replacement there, and carries on after it. |
| Text.RemoveDotDot | Util.cs:131 | Deleting every ".." leaves none behind, and keeps the first character when it is not '.'. |
| Text.ReplaceDotDotByRuns | Util.cs:131 | `Replace("..", "")`, scanning left to right, equals the run-by-run reference: a maximal run of k '.'s keeps k % 2 of them, and every other character stays in place. |
| Text.FileName | Configuration.cs:261 | A suffix of the path with no '/' or '\'. Unless it is the whole path, a separator precedes it. |
| Text.FileNameOfJoined | Configuration.cs:261 | Whatever the directory part, the file name is the component after the last separator. |
| Text.ParseInt32 | Configuration.cs:291 | A result is a 32-bit number written as an optional sign followed by decimal digits. Its value is the digits' value, negated after '-'. Every sign-and-digits text whose value is in the 32-bit range is accepted. |
| Text.ParseIgnoresPlusAndZero | Configuration.cs:291 | A leading '+' or '0' before digits does not change what is parsed, so `+8730` and `08730` parse as `8730` does. |
| Text.ParseShowInt | Configuration.cs:291 | Every 32-bit number parses back from its decimal form. |
| Scenarios.ScenarioBracketed | Configuration.cs:179-314 | Under the intended test, `port = 8730`, `[backup]`, `path = C:\data`, `read only = false` loads. Port 8730 reaches both `Port` and `RsyncPort`, and one writable module has path "C:/data". |
| Scenarios.ScenarioAsWritten | Configuration.cs:212 | Under the test as written, the same file fails at its header line. |
| Scenarios.ScenarioAccessors | Configuration.cs:101-107 | After that load, the module read by the number found for "backup" is not read-only. |
| Scenarios.WritableAccessors | Configuration.cs:88-120 | The loaded module is found at 0, reads back its name, is neither read-only nor write-only, and has no secrets file. One past the end faults. |
| Scenarios.SecretsFileKeepsFileName | Configuration.cs:260-262 | "/etc/secrets/rsyncd.secrets" is stored as "rsyncd.secrets", however the key is cased. |
| Scenarios.ReadOnlyNo | Configuration.cs:245-247 | `Read Only = no` keeps the module read-only. |
| Scenarios.UnknownModuleKey | Configuration.cs:263-264 | An unknown module key changes nothing. |
| Scenarios.NoModuleOutside | Configuration.cs:75-79 | -1 and `Count` give no module under the corrected guard. `Count` raises under the guard as written. |

## Left out

- Configuration.LoadParm: a failed load is only `Fail(error)`. The source has by then already written `Port` (Configuration.cs:290), appended modules and set options, before reaching the catch at Configuration.cs:307-310. That partial state is not modelled.
- `WinRsync.Exit` (Configuration.cs:186, 309) terminates the process. It is modelled as the `Fail` result.
- `File.Exists`, `StreamReader` and `ReadLine` (Configuration.cs:184-208) are file I/O.
  - The file is given as its list of lines (`ConfFile`).
  - A file that cannot be opened is `Unreadable`.
  - A read error part-way through the file (Configuration.cs:204) is not modelled.
- Opening the log `FileStream` and `Log.Write` (Configuration.cs:278-288) are I/O. Whether the open succeeds is the parameter `canOpen`. The opened stream is represented by its path.
- `lock (this)` and `lock (cf)` are concurrency. The model is sequential.
- The constructor's path resolution (Configuration.cs:43) depends on the host environment.
- The null `Modules` list before the first load is not modelled: the accessors and `GetNumberModule` take the list as a parameter.
- Configuration.ModuleUpdate: `ToLower` and `CompareTo` (Configuration.cs:235, 246, 249) are culture-sensitive in .NET; the model lower-cases ASCII and compares ordinally. Under the Turkish culture, for example, "WRITE ONLY" lowers to a dotless 'ı' and would miss the key; the model matches it.
- Configuration.IsComment: `StartsWith` (Configuration.cs:210) is culture-sensitive in .NET; the model compares ordinally.
- Configuration.IsHeader: `StartsWith` and `EndsWith` (Configuration.cs:212) are culture-sensitive in .NET; the model compares ordinally.
- Util.FindColon: `IndexOf(string)` (Util.cs:153, 158) is culture-sensitive in .NET; the model searches ordinally.
- Util.FindColon: the position returned counts UTF-16 code units in .NET but scalar values in the model. After any character above U+FFFF the two differ: on "😀:" the source returns 2 and the model returns 1.
- Text.IndexOf: positions count UTF-16 code units in .NET but scalar values in the model, so they differ after any character above U+FFFF.
- Util.CleanFileName: `Substring(0, 2)` (Util.cs:131) keeps two UTF-16 code units, while the model keeps two scalar values. When the name starts with a character above U+FFFF the results differ: "😀" raises in the model and is returned by the source, and "😀.." is returned unchanged by the model while the source returns "😀".
- Util.CleanFileNameOfClean: "its first two characters" are scalar values here and UTF-16 code units in the source, so the statement holds for the source only when the name's first two characters are in U+0000-U+FFFF.
- Util.CleanFileNameKeepsCleanNames: the same proviso; "😀.." meets its requirements and is unchanged in the model, but the source returns "😀".
- Text.ParseInt32: `Convert.ToInt32` is modelled as an optional sign followed by decimal digits. The culture's sign symbols and the trailing '\0' characters .NET tolerates are not modelled.
- Text.FileName: `Path.GetFileName` is modelled as the suffix after the last '/' or '\'. On Windows it also splits at the volume separator ':' and raises on invalid path characters; neither is modelled.
- Text.Trim: `String.Trim` removes the fixed set of characters `Char.IsWhiteSpace` accepts.
- Util.CompareModificationTime: integers are unbounded, so the wrap-around of the `long` subtractions at Util.cs:247 and Util.cs:253 is not modelled.
- Util.MemoryCopy: when `dest` and `source` are the same array and the destination starts inside the source run after its start, the contract says nothing about the copied bytes.
- Null arrays and strings passed to the `Util` helpers (`NullReferenceException`) are not modelled; Dafny sequences and arrays are never null.
- `PushDir`, `PopDir`, `FullFileName`, `MakeRelative` and `SanitizePath` are not part of this model. They change the process's working directory or wrap `System.Uri` and `Path.GetFullPath`; `SanitizePath` does nothing.
- Of the daemon's `Options`, only the three fields a load writes are modelled.

## Findings

| source | as written | input that shows it | evidently intended | confidence | as-written member | corrected member |
|---|---|---|---|---|---|---|
| Configuration.cs:212 | `line.StartsWith("[") && line.StartsWith("]")`: no line starts with both, so no header is ever recognised. A `[name]` line then has no '=' and fails the whole load. | the file `port = 8730`, `[backup]`, `path = C:\data`, `read only = false` | `line.StartsWith("[") && line.EndsWith("]")` | high (not executed) | LoadProperties.AsWrittenSectionFileFails | LoadProperties.BracketedHeaderEnters |
| Configuration.cs:75 | `numberModule > Modules.Count` lets `Count` through to `Modules[Count]`, which raises instead of returning null. | `GetModule(1)` on a list of one module | `numberModule >= Modules.Count` | high (not executed) | Registry.GetModuleGuardDefect | Registry.GetModule |

- Header test. `Scenarios.ScenarioAsWritten` works the example file through under the test as written and shows the load failing at `[backup]`. `Scenarios.ScenarioBracketed` loads the same file under the intended test. The scanner takes the header test as a parameter, so every property is stated for the rule it holds under.
- Bound check. `Registry.GetModuleAsWritten` is the guard as written. The accessors read through the corrected `Registry.GetModule`, so at `Count` they fault with a null dereference rather than an index error. Both are faults.

=== FILE: configuration.dfy ===
/**
  `Configuration.LoadParm`: one forward pass over the lines of the
  configuration file that fills the module list and the global daemon
  settings. The pass is a fold over the lines; the "current module"
  reference the source threads through the loop is the `Context`.
 */
module Configuration {
  import opened Nullable
  import opened Text
  import opened Registry
  import Util

  /**
    Which section-header test the scanner applies. The source tests
    `StartsWith("[") && StartsWith("]")` (`AsWritten`), which no line passes;
    the evident intent is `StartsWith("[") && EndsWith("]")` (`Bracketed`).
   */
  datatype HeaderRule = AsWritten | Bracketed

  /** The fields of the daemon's `Options` that a load writes; `logFile` is the path of the opened log stream. */
  datatype Options = Options(rsyncPort: int, bindAddress: Option<string>, logFile: Option<string>)

  /** The public fields of a `Configuration`; `modules` stays null until the first load. */
  datatype Store = Store(modules: Option<seq<Module>>, logFile: Option<string>, port: Option<string>, address: Option<string>)

  /** The configuration file as the load finds it. */
  datatype ConfFile = Missing | Unreadable | Lines(lines: seq<string>)

  /**
    Why a load returns false. `CantFind` is the missing-file exit; the others
    all reach the catch-all handler around the pass.
   */
  datatype LoadError =
    | CantFind
    | CantOpen
    | MissingValue(line: string)
    | PortNotInt32(value: string)

  datatype Result<+T> = Ok(value: T) | Fail(error: LoadError)

  /** Outside every section, or inside the module at `index` of the list. */
  datatype Context = Global | InModule(index: nat)

  /** What the pass carries from line to line. */
  datatype Scan = Scan(modules: seq<Module>, port: Option<string>, address: Option<string>, options: Options, context: Context) {
    predicate Valid() {
      context.InModule? ==> context.index < |modules|
    }
  }

  /** How one line reads after trimming. */
  datatype Line =
    | Skipped                          // blank, or a ';' or '#' comment
    | Header(name: string)             // a section header, brackets stripped
    | Pair(key: string, value: string) // exactly one '=', both sides trimmed
    | ExtraEquals                      // two or more '='
    | NoEquals                         // no '=' at all

  /**
    The header test at Configuration.cs:212. As written it asks for a line that
    starts with both '[' and ']', which none does; `Bracketed` asks for a
    leading '[' and a trailing ']'.
   */
  function IsHeader(rule: HeaderRule, line: string): (r: bool)
    ensures rule == AsWritten ==> !r
    ensures rule == Bracketed ==> (r <==> |line| > 0 && line[0] == '[' && line[|line| - 1] == ']')
  {
    match rule
    case AsWritten => StartsWith(line, "[") && StartsWith(line, "]")
    case Bracketed => StartsWith(line, "[") && EndsWith(line, "]")
  }

  /** A skipped line: empty, or starting with ';' or '#'. */
  function IsComment(line: string): (r: bool)
    ensures r <==> line == [] || line[0] == ';' || line[0] == '#'
  {
    Util.IsBlank(Some(line)) || StartsWith(line, ";") || StartsWith(line, "#")
  }

  /**
    How the read loop sorts one line, after trimming it: a comment, a header,
    or else by the number of '=' it holds. A single '=' splits the line into
    the trimmed text before and after it.
   */
  function Classify(rule: HeaderRule, raw: string): Line {
    var line := Trim(raw);
    if IsComment(line) then Skipped
    else if IsHeader(rule, line) then Header(TrimEndChar(TrimStartChar(line, '['), ']'))
    else
      var parm := Split(line, '=');
      if |parm| > 2 then ExtraEquals
      else if |parm| < 2 then NoEquals
      else Pair(Trim(parm[0]), Trim(parm[1]))
  }

  /**
    What `Classify` makes of a line, stated by counting its '='s rather than
    by splitting it: a pair is the trimmed text on either side of the only '='.
   */
  lemma ClassifySorts(rule: HeaderRule, raw: string)
    ensures var line := Trim(raw); var r := Classify(rule, raw);
            && (r.Skipped? <==> IsComment(line))
            && (r.Header? <==> !IsComment(line) && IsHeader(rule, line))
            && (!IsComment(line) && !IsHeader(rule, line) ==>
                  && (r.NoEquals? <==> '=' !in line)
                  && (r.ExtraEquals? <==> multiset(line)['='] >= 2)
                  && (r.Pair? <==> multiset(line)['='] == 1))
            && (r.Pair? ==> var i := IndexOf(line, '=');
                  0 <= i && r.key == Trim(line[..i]) && r.value == Trim(line[i + 1..]))
  {
    var line := Trim(raw);
    if !IsComment(line) && !IsHeader(rule, line) {
      var parm := Split(line, '=');
      assert Classify(rule, raw) == (if |parm| > 2 then ExtraEquals else if |parm| < 2 then NoEquals
                                     else Pair(Trim(parm[0]), Trim(parm[1])));
      assert ('=' in line) == ('=' in multiset(line));
      if |parm| == 2 {
        SplitAtOnlySeparator(line, '=');
      }
    }
  }

  /** How a key/value line and a section header are written in the file. */
  function RenderPair(key: string, value: string): string {
    key + " = " + value
  }

  function RenderHeader(name: string): string {
    "[" + name + "]"
  }

  /** The keys recognised outside every section, matched exactly as written. */
  const GlobalKeys: set<string> := {"port", "address", "log file"}

  /** The keys a module section recognises, after lowering. */
  const ModuleKeys: set<string> :=
    {"path", "comment", "read only", "write only", "hosts allow", "hosts deny", "auth users", "secrets file"}

  /**
    A key/value line inside a module section. The key is lowered before it is
    matched; an unknown key leaves the module as it was.
   */
  function ModuleUpdate(m: Module, key: string, value: string): (r: Module)
    ensures r.name == m.name
    ensures Lower(key) !in ModuleKeys ==> r == m
    ensures Lower(key) == "path" ==>
              && r == m.(path := r.path) && |r.path| == |value|
              && forall i :: 0 <= i < |value| ==> r.path[i] == (if value[i] == '\\' then '/' else value[i])
    ensures Lower(key) == "comment" ==> r == m.(comment := value)
    ensures Lower(key) == "read only" ==> r == m.(readOnly := r.readOnly) && (!r.readOnly <==> value == "false")
    ensures Lower(key) == "write only" ==> r == m.(writeOnly := r.writeOnly) && (r.writeOnly <==> value == "true")
    ensures Lower(key) == "hosts allow" ==> r == m.(hostsAllow := value)
    ensures Lower(key) == "hosts deny" ==> r == m.(hostsDeny := value)
    ensures Lower(key) == "auth users" ==> r == m.(authUsers := value)
    ensures Lower(key) == "secrets file" ==>
              && r == m.(secretsFile := r.secretsFile) && '/' !in r.secretsFile && '\\' !in r.secretsFile
              && EndsWith(value, r.secretsFile)
              && (|r.secretsFile| < |value| ==>
                    value[|value| - |r.secretsFile| - 1] == '/' || value[|value| - |r.secretsFile| - 1] == '\\')
  {
    var k := Lower(key);
    if k == "path" then m.(path := ReplaceChar(value, '\\', '/'))
    else if k == "comment" then m.(comment := value)
    else if k == "read only" then m.(readOnly := if value == "false" then false else true)
    else if k == "write only" then m.(writeOnly := if value == "true" then true else false)
    else if k == "hosts allow" then m.(hostsAllow := value)
    else if k == "hosts deny" then m.(hostsDeny := value)
    else if k == "auth users" then m.(authUsers := value)
    else if k == "secrets file" then m.(secretsFile := FileName(value))
    else m
  }

  /**
    A key/value line outside every section; the key is matched as written.
    Opening the log file is the host's business: `canOpen` says whether it succeeds.
   */
  function GlobalUpdate(s: Scan, key: string, value: string, canOpen: string -> bool): (r: Result<Scan>)
    ensures r.Fail? <==> key == "port" && ParseInt32(value).None?
    ensures r.Ok? ==> r.value.modules == s.modules && r.value.context == s.context
    ensures key == "log file" ==>
              r == Ok(s.(options := s.options.(logFile := if canOpen(value) then Some(value) else s.options.logFile)))
    ensures key == "port" && r.Ok? ==>
              r.value == s.(port := Some(value), options := s.options.(rsyncPort := r.value.options.rsyncPort))
              && ParseInt32(value) == Some(r.value.options.rsyncPort)
    ensures key == "address" ==>
              r == Ok(s.(address := Some(value), options := s.options.(bindAddress := Some(value))))
    ensures key != "log file" && key != "port" && key != "address" ==> r == Ok(s)
  {
    if key == "log file" then
      if canOpen(value) then Ok(s.(options := s.options.(logFile := Some(value)))) else Ok(s)
    else if key == "port" then
      match ParseInt32(value)
      case None => Fail(PortNotInt32(value))
      case Some(n) => Ok(s.(port := Some(value), options := s.options.(rsyncPort := n)))
    else if key == "address" then
      Ok(s.(address := Some(value), options := s.options.(bindAddress := Some(value))))
    else Ok(s)
  }

  /** A header line: re-enter the first module of that name, or append a new one and enter it. */
  function Enter(s: Scan, name: string): (r: Scan)
    ensures r.context.InModule? && r.context.index < |r.modules| && r.modules[r.context.index].name == name
    ensures HasName(s.modules, name) ==> r.modules == s.modules
    ensures !HasName(s.modules, name) ==> r.modules == s.modules + [NewModule(name)]
    ensures HasName(s.modules, name) ==> r.context == InModule(GetNumberModule(s.modules, name))
    ensures !HasName(s.modules, name) ==> r.context == InModule(|s.modules|)
    ensures r.port == s.port && r.address == s.address && r.options == s.options
  {
    var numberModule := GetNumberModule(s.modules, name);
    if numberModule >= 0 then s.(context := InModule(numberModule))
    else s.(modules := s.modules + [NewModule(name)], context := InModule(|s.modules|))
  }

  /** What one classified line does to the pass; `raw` is the line as read, kept for the error. */
  function Apply(s: Scan, line: Line, raw: string, canOpen: string -> bool): (r: Result<Scan>)
    requires s.Valid()
    ensures r.Ok? ==> r.value.Valid() && Extends(s.modules, r.value.modules)
  {
    match line
    case Skipped => Ok(s)
    case ExtraEquals => Ok(s)
    case NoEquals => Fail(MissingValue(raw))
    case Header(name) => Ok(Enter(s, name))
    case Pair(key, value) =>
      match s.context
      case InModule(i) => Ok(s.(modules := s.modules[i := ModuleUpdate(s.modules[i], key, value)]))
      case Global => GlobalUpdate(s, key, value, canOpen)
  }

  /**
    One iteration of the read loop. It can raise only at the missing value of
    a line without '=', or at a bad port outside every section.
   */
  function Step(rule: HeaderRule, canOpen: string -> bool, s: Scan, raw: string): (r: Result<Scan>)
    requires s.Valid()
    ensures r.Ok? ==> r.value.Valid() && Extends(s.modules, r.value.modules)
    ensures r.Fail? ==> r.error == MissingValue(raw) || (r.error.PortNotInt32? && s.context == Global)
  {
    Apply(s, Classify(rule, raw), raw, canOpen)
  }

  /** The read loop: every line in order, stopping at the first that raises. */
  function Run(rule: HeaderRule, canOpen: string -> bool, lines: seq<string>, s: Scan): (r: Result<Scan>)
    requires s.Valid()
    ensures r.Ok? ==> r.value.Valid() && Extends(s.modules, r.value.modules)
    decreases |lines|
  {
    if lines == [] then Ok(s)
    else
      match Step(rule, canOpen, s, lines[0])
      case Fail(e) => Fail(e)
      case Ok(next) => Run(rule, canOpen, lines[1..], next)
  }

  /**
    `LoadParm`: fails when the file is missing or cannot be read, otherwise runs
    the pass from the global context over the existing module list (an empty
    one when it is still null). `Ok` is the source's `true`.
   */
  function LoadParm(rule: HeaderRule, canOpen: string -> bool, store: Store, options: Options, file: ConfFile)
    : (r: Result<(Store, Options)>)
    ensures file.Missing? ==> r == Fail(CantFind)
    ensures file.Unreadable? ==> r == Fail(CantOpen)
    ensures r.Ok? ==> var (after, _) := r.value;
              after.modules.Some? && Extends(store.modules.GetOr([]), after.modules.value) && after.logFile == store.logFile
  {
    match file
    case Missing => Fail(CantFind)
    case Unreadable => Fail(CantOpen)
    case Lines(lines) =>
      match Run(rule, canOpen, lines, Scan(store.modules.GetOr([]), store.port, store.address, options, Global))
      case Fail(e) => Fail(e)
      case Ok(end) => Ok((Store(Some(end.modules), store.logFile, end.port, end.address), end.options))
  }
}

=== FILE: load_properties.dfy ===
/** What a load does, line by line and over the whole file. */
module LoadProperties {
  import opened Nullable
  import opened Text
  import opened Registry
  import opened Configuration

  /** Blank lines and ';' or '#' comments leave every part of the pass as it was. */
  lemma CommentLeavesStateUnchanged(rule: HeaderRule, canOpen: string -> bool, s: Scan, raw: string)
    requires s.Valid()
    requires var line := Trim(raw); line == [] || line[0] == ';' || line[0] == '#'
    ensures Step(rule, canOpen, s, raw) == Ok(s)
  {
    var line := Trim(raw);
    if line != [] {
      assert line[..1] == [line[0]];
    }
  }

  /** Classification of a trimmed line that is neither comment nor header and splits in two. */
  lemma ClassifyPair(rule: HeaderRule, raw: string, line: string, before: string, after: string)
    requires Trim(raw) == line && !IsComment(line) && !IsHeader(rule, line)
    requires Split(line, '=') == [before, after]
    ensures Classify(rule, raw) == Pair(Trim(before), Trim(after))
  {
  }

  lemma RenderPairIsTrimmedLine(rule: HeaderRule, key: string, value: string)
    requires key != [] && value != [] && Trimmed(key) && Trimmed(value)
    requires key[0] != ';' && key[0] != '#' && key[0] != '['
    ensures Trim(RenderPair(key, value)) == RenderPair(key, value)
    ensures !IsComment(RenderPair(key, value)) && !IsHeader(rule, RenderPair(key, value))
  {
    var line := RenderPair(key, value);
    assert line[0] == key[0] && line[|line| - 1] == value[|value| - 1];
    TrimOfTrimmed(line);
    assert line[..1] == [key[0]];
  }

  lemma RenderPairSplits(key: string, value: string)
    requires '=' !in key && '=' !in value
    ensures Split(RenderPair(key, value), '=') == [key + " ", " " + value]
  {
    var parts := [key + " ", " " + value];
    assert Join(parts, '=') == RenderPair(key, value);
    SplitJoin(parts, '=');
  }

  lemma TrimSpaced(key: string, value: string)
    requires Trimmed(key) && Trimmed(value)
    ensures Trim(key + " ") == key && Trim(" " + value) == value
  {
    TrimOfPadded([], key, " ");
    assert [] + key + " " == key + " ";
    TrimOfPadded(" ", value, []);
    assert " " + value + [] == " " + value;
  }

  /** A `key = value` line reads back as that key and value, under either header test. */
  lemma ClassifyRenderPair(rule: HeaderRule, key: string, value: string)
    requires key != [] && value != [] && Trimmed(key) && Trimmed(value)
    requires '=' !in key && '=' !in value
    requires key[0] != ';' && key[0] != '#' && key[0] != '['
    ensures Classify(rule, RenderPair(key, value)) == Pair(key, value)
  {
    RenderPairIsTrimmedLine(rule, key, value);
    RenderPairSplits(key, value);
    TrimSpaced(key, value);
    ClassifyPair(rule, RenderPair(key, value), RenderPair(key, value), key + " ", " " + value);
  }

  lemma RenderHeaderIsTrimmedLine(name: string)
    ensures Trim(RenderHeader(name)) == RenderHeader(name)
    ensures !IsComment(RenderHeader(name)) && IsHeader(Bracketed, RenderHeader(name))
  {
    var line := RenderHeader(name);
    assert line[0] == '[' && line[|line| - 1] == ']';
    TrimOfTrimmed(line);
    assert line[..1] == "[" && line[|line| - 1..] == "]";
  }

  lemma RenderHeaderStrips(name: string)
    requires name == [] || (name[0] != '[' && name[|name| - 1] != ']')
    ensures TrimEndChar(TrimStartChar(RenderHeader(name), '['), ']') == name
  {
    var line := RenderHeader(name);
    assert line[1..] == name + "]";
    assert TrimStartChar(line, '[') == TrimStartChar(name + "]", '[');
    assert TrimStartChar(name + "]", '[') == name + "]";
    assert (name + "]")[..|name|] == name;
    assert TrimEndChar(name + "]", ']') == TrimEndChar(name, ']');
  }

  /** A line with no '=' and no header is a line without a value. */
  lemma ClassifyNoEquals(rule: HeaderRule, raw: string, line: string)
    requires Trim(raw) == line && !IsComment(line) && !IsHeader(rule, line) && '=' !in line
    ensures Classify(rule, raw) == NoEquals
  {
    assert multiset(line)['='] == 0;
  }

  lemma ClassifyHeaderLine(raw: string, line: string)
    requires Trim(raw) == line && !IsComment(line) && IsHeader(Bracketed, line)
    ensures Classify(Bracketed, raw) == Header(TrimEndChar(TrimStartChar(line, '['), ']'))
  {
  }

  lemma ClassifyRenderHeaderBracketed(name: string)
    requires name == [] || (name[0] != '[' && name[|name| - 1] != ']')
    ensures Classify(Bracketed, RenderHeader(name)) == Header(name)
  {
    RenderHeaderIsTrimmedLine(name);
    RenderHeaderStrips(name);
    ClassifyHeaderLine(RenderHeader(name), RenderHeader(name));
  }

  lemma RenderHeaderFacts(name: string)
    ensures '=' !in name ==> '=' !in RenderHeader(name)
    ensures !IsHeader(AsWritten, RenderHeader(name))
  {
    var line := RenderHeader(name);
    assert line[..1] == "[";
    if '=' !in name {
      assert forall k :: 0 <= k < |line| ==> line[k] == '[' || line[k] == ']' || line[k] == name[k - 1];
    }
  }

  lemma ClassifyRenderHeaderAsWritten(name: string)
    requires '=' !in name
    ensures Classify(AsWritten, RenderHeader(name)) == NoEquals
  {
    RenderHeaderIsTrimmedLine(name);
    RenderHeaderFacts(name);
    ClassifyNoEquals(AsWritten, RenderHeader(name), RenderHeader(name));
  }

  /**
    Under the intended test `[name]` reads back as a header for `name`; under
    the test as written, when `name` has no '=', it reads as a line without a value.
   */
  lemma ClassifyRenderHeader(name: string)
    requires name == [] || (name[0] != '[' && name[|name| - 1] != ']')
    ensures Classify(Bracketed, RenderHeader(name)) == Header(name)
    ensures '=' !in name ==> Classify(AsWritten, RenderHeader(name)) == NoEquals
  {
    ClassifyRenderHeaderBracketed(name);
    if '=' !in name {
      ClassifyRenderHeaderAsWritten(name);
    }
  }

  /** Under the test as written no line is a section header. */
  lemma AsWrittenHasNoHeaders(raw: string)
    ensures !Classify(AsWritten, raw).Header?
  {
  }

  /**
    Under the test as written the pass never leaves the global context, so it
    never touches the module list.
   */
  lemma {:induction false} AsWrittenKeepsModules(canOpen: string -> bool, lines: seq<string>, s: Scan)
    requires s.context == Global
    ensures Run(AsWritten, canOpen, lines, s).Ok? ==>
              Run(AsWritten, canOpen, lines, s).value.modules == s.modules
              && Run(AsWritten, canOpen, lines, s).value.context == Global
    decreases |lines|
  {
    if lines != [] {
      AsWrittenHasNoHeaders(lines[0]);
      var step := Step(AsWritten, canOpen, s, lines[0]);
      if step.Ok? {
        AsWrittenKeepsModules(canOpen, lines[1..], step.value);
      }
    }
  }

  /**
    Under the test as written a `[name]` line with no '=' is read as a key/value
    line without a value, and the index error it raises fails the load.
   */
  lemma AsWrittenBracketLineFails(canOpen: string -> bool, s: Scan, raw: string)
    requires s.Valid()
    requires StartsWith(Trim(raw), "[") && '=' !in Trim(raw)
    ensures Classify(AsWritten, raw) == NoEquals
    ensures Step(AsWritten, canOpen, s, raw) == Fail(MissingValue(raw))
  {
    var line := Trim(raw);
    assert line[0] == '[';
    assert multiset(line)['='] == 0;
  }

  /** A line with two or more '=' is dropped without a trace. */
  lemma ExtraEqualsChangesNothing(rule: HeaderRule, canOpen: string -> bool, s: Scan, raw: string)
    requires s.Valid()
    requires !IsComment(Trim(raw)) && !IsHeader(rule, Trim(raw))
    requires multiset(Trim(raw))['='] >= 2
    ensures Step(rule, canOpen, s, raw) == Ok(s)
  {
  }

  /** A line that is neither comment nor header and has no '=' raises, in either context. */
  lemma NoEqualsFails(rule: HeaderRule, canOpen: string -> bool, s: Scan, raw: string)
    requires s.Valid()
    requires !IsComment(Trim(raw)) && !IsHeader(rule, Trim(raw))
    requires '=' !in Trim(raw)
    ensures Step(rule, canOpen, s, raw) == Fail(MissingValue(raw))
  {
    assert multiset(Trim(raw))['='] == 0;
  }

  /** One line that raises anywhere in the file fails the whole pass. */
  lemma {:induction false} RunFailsOnNoEquals(rule: HeaderRule, canOpen: string -> bool, lines: seq<string>, s: Scan, k: nat)
    requires s.Valid()
    requires k < |lines| && Classify(rule, lines[k]) == NoEquals
    ensures Run(rule, canOpen, lines, s).Fail?
    decreases k
  {
    var step := Step(rule, canOpen, s, lines[0]);
    if k > 0 && step.Ok? {
      RunFailsOnNoEquals(rule, canOpen, lines[1..], step.value, k - 1);
    }
  }

  /** So does a load. */
  lemma LoadFailsOnNoEquals(rule: HeaderRule, canOpen: string -> bool, store: Store, options: Options, lines: seq<string>, k: nat)
    requires k < |lines| && Classify(rule, lines[k]) == NoEquals
    ensures LoadParm(rule, canOpen, store, options, Lines(lines)).Fail?
  {
    RunFailsOnNoEquals(rule, canOpen, lines, Scan(store.modules.GetOr([]), store.port, store.address, options, Global), k);
  }

  /**
    Under the test as written any file with a `[name]` line that has no '='
    cannot be loaded at all.
   */
  lemma AsWrittenSectionFileFails(canOpen: string -> bool, store: Store, options: Options, lines: seq<string>, k: nat)
    requires k < |lines| && StartsWith(Trim(lines[k]), "[") && '=' !in Trim(lines[k])
    ensures LoadParm(AsWritten, canOpen, store, options, Lines(lines)).Fail?
  {
    AsWrittenBracketLineFails(canOpen, Scan([], None, None, options, Global), lines[k]);
    LoadFailsOnNoEquals(AsWritten, canOpen, store, options, lines, k);
  }

  /**
    Under the intended test a header names a module: an existing name is
    re-entered with the list untouched, a new one is appended with defaults.
   */
  lemma BracketedHeaderEnters(canOpen: string -> bool, s: Scan, raw: string, name: string)
    requires s.Valid()
    requires Classify(Bracketed, raw) == Header(name)
    ensures var r := Step(Bracketed, canOpen, s, raw);
            && r.Ok?
            && r.value.context.InModule?
            && r.value.modules[r.value.context.index].name == name
            && (HasName(s.modules, name) ==> r.value == s.(context := InModule(GetNumberModule(s.modules, name))))
            && (!HasName(s.modules, name) ==> r.value == s.(modules := s.modules + [NewModule(name)], context := InModule(|s.modules|)))
  {
  }

  /** A header's name is the trimmed line without its leading '[' and trailing ']' characters. */
  lemma BracketedHeaderName(raw: string)
    requires var line := Trim(raw); |line| >= 2 && line[0] == '[' && line[|line| - 1] == ']'
    ensures Classify(Bracketed, raw) == Header(TrimEndChar(TrimStartChar(Trim(raw), '['), ']'))
    ensures var name := Classify(Bracketed, raw).name; (name == [] || name[0] != '[') && (name == [] || name[|name| - 1] != ']')
  {
    var line := Trim(raw);
    assert line[..1] == "[";
    assert line[|line| - 1..] == "]";
    assert !IsComment(line);
    assert IsHeader(Bracketed, line);
  }

  /** A step never gives two modules the same name. */
  lemma ApplyKeepsNamesDistinct(s: Scan, line: Line, raw: string, canOpen: string -> bool)
    requires s.Valid() && DistinctNames(s.modules)
    ensures Apply(s, line, raw, canOpen).Ok? ==> DistinctNames(Apply(s, line, raw, canOpen).value.modules)
  {
    var r := Apply(s, line, raw, canOpen);
    if r.Ok? {
      match line
      case Header(name) =>
        if !HasName(s.modules, name) {
          assert r.value.modules == s.modules + [NewModule(name)];
        }
      case Pair(key, value) =>
        assert forall j :: 0 <= j < |s.modules| ==> r.value.modules[j].name == s.modules[j].name;
      case _ =>
    }
  }

  /** Nor does a whole pass. */
  lemma {:induction false} RunKeepsNamesDistinct(rule: HeaderRule, canOpen: string -> bool, lines: seq<string>, s: Scan)
    requires s.Valid() && DistinctNames(s.modules)
    ensures Run(rule, canOpen, lines, s).Ok? ==> DistinctNames(Run(rule, canOpen, lines, s).value.modules)
    decreases |lines|
  {
    if lines != [] {
      ApplyKeepsNamesDistinct(s, Classify(rule, lines[0]), lines[0], canOpen);
      var step := Step(rule, canOpen, s, lines[0]);
      if step.Ok? {
        RunKeepsNamesDistinct(rule, canOpen, lines[1..], step.value);
      }
    }
  }

  /**
    A load keeps the existing module list (an empty one in place of null),
    only appends to it, and leaves its names distinct when they were.
    Under the test as written the list comes back exactly as it was.
   */
  lemma LoadKeepsModules(rule: HeaderRule, canOpen: string -> bool, store: Store, options: Options, lines: seq<string>)
    ensures var r := LoadParm(rule, canOpen, store, options, Lines(lines));
            r.Ok? ==> var after := r.value.0.modules.value;
                      && Extends(store.modules.GetOr([]), after)
                      && (DistinctNames(store.modules.GetOr([])) ==> DistinctNames(after))
                      && (rule == AsWritten ==> after == store.modules.GetOr([]))
  {
    var start := Scan(store.modules.GetOr([]), store.port, store.address, options, Global);
    if DistinctNames(start.modules) {
      RunKeepsNamesDistinct(rule, canOpen, lines, start);
    }
    if rule == AsWritten {
      AsWrittenKeepsModules(canOpen, lines, start);
    }
  }

  /** Inside a module section a key/value line rewrites that module alone; all else stays. */
  lemma ModuleLineTouchesOnlyCurrent(rule: HeaderRule, canOpen: string -> bool, s: Scan, raw: string, key: string, value: string)
    requires s.Valid() && s.context.InModule?
    requires Classify(rule, raw) == Pair(key, value)
    ensures var r := Step(rule, canOpen, s, raw);
            && r.Ok?
            && |r.value.modules| == |s.modules|
            && r.value.context == s.context
            && r.value.port == s.port && r.value.address == s.address && r.value.options == s.options
            && (forall j :: 0 <= j < |s.modules| && j != s.context.index ==> r.value.modules[j] == s.modules[j])
            && r.value.modules[s.context.index] == ModuleUpdate(s.modules[s.context.index], key, value)
  {
  }

  /** Module keys are matched without regard to case. */
  lemma ModuleKeyIgnoresCase(m: Module, key1: string, key2: string, value: string)
    requires Lower(key1) == Lower(key2)
    ensures ModuleUpdate(m, key1, value) == ModuleUpdate(m, key2, value)
  {
  }

  /**
    Global keys are matched as written: a key that lowers to a global key
    without being one exactly changes nothing.
   */
  lemma GlobalKeyIsCaseSensitive(s: Scan, key: string, value: string, canOpen: string -> bool)
    requires Lower(key) in GlobalKeys && key !in GlobalKeys
    ensures GlobalUpdate(s, key, value, canOpen) == Ok(s)
  {
  }

  /** "Port" and "ADDRESS" are two such keys. */
  lemma MiscasedGlobalKeys()
    ensures Lower("Port") in GlobalKeys && "Port" !in GlobalKeys
    ensures Lower("ADDRESS") in GlobalKeys && "ADDRESS" !in GlobalKeys
  {
    assert Lower("Port") == "port";
    assert Lower("ADDRESS") == "address";
  }

  /** Outside every section a key/value line never touches the modules or the context. */
  lemma GlobalLineKeepsModules(rule: HeaderRule, canOpen: string -> bool, s: Scan, raw: string, key: string, value: string)
    requires s.Valid() && s.context == Global
    requires Classify(rule, raw) == Pair(key, value)
    ensures var r := Step(rule, canOpen, s, raw);
            && (r.Fail? <==> key == "port" && ParseInt32(value).None?)
            && (r.Ok? ==> r.value.modules == s.modules && r.value.context == Global)
  {
  }
}

=== FILE: nullable.dfy ===
/** Values that the C# code can hand back in place of an ordinary result. */
module Nullable {

  /** A C# reference that may be null: `None` is null. */
  datatype Option<+T> = None | Some(value: T) {

    /** The C# `??` operator: the value, or `default` when null. */
    function GetOr(default: T): T {
      match this
      case Some(v) => v
      case None => default
    }
  }

  /** How a call completes: it returns a value, or it raises the named exception. */
  datatype Completion<+T> = Returns(value: T) | Throws(exception: string)
}

=== FILE: registry.dfy ===
/**
  The module record and the read accessors of the `Configuration` class.
  They work on the loaded module list, which the model passes in. Before the
  first load that list is null, and any call that reaches its `Count` or one
  of its elements faults; that state is not modelled here.
 */
module Registry {
  import opened Nullable

  /** One synchronisation endpoint (`class Module`). */
  datatype Module = Module(
    name: string,
    path: string,
    comment: string,
    readOnly: bool,
    writeOnly: bool,
    hostsAllow: string,
    hostsDeny: string,
    authUsers: string,
    secretsFile: string)

  /** `new Module(name)`: read-only, not write-only, every other text field empty. */
  function NewModule(name: string): (m: Module)
    ensures m.name == name
    ensures m.readOnly && !m.writeOnly
    ensures m.path == "" && m.comment == "" && m.secretsFile == ""
    ensures m.hostsAllow == "" && m.hostsDeny == "" && m.authUsers == ""
  {
    Module(name, "", "", true, false, "", "", "", "")
  }

  /** No two modules share a name. */
  predicate DistinctNames(modules: seq<Module>) {
    forall i, j :: 0 <= i < j < |modules| ==> modules[i].name != modules[j].name
  }

  /** `after` keeps every module of `before`, by name and position, and may add more at the end. */
  predicate Extends(before: seq<Module>, after: seq<Module>) {
    |before| <= |after| && forall i :: 0 <= i < |before| ==> after[i].name == before[i].name
  }

  predicate HasName(modules: seq<Module>, name: string) {
    exists i :: 0 <= i < |modules| && modules[i].name == name
  }

  /**
    `GetNumberModule`: a linear, case-sensitive search; -1 when no module has
    the name, otherwise the first position that has it.
   */
  function GetNumberModule(modules: seq<Module>, name: string): (r: int)
    ensures -1 <= r < |modules|
    ensures r == -1 <==> !HasName(modules, name)
    ensures r >= 0 ==> modules[r].name == name && forall i :: 0 <= i < r ==> modules[i].name != name
  {
    if |modules| == 0 then -1
    else if modules[0].name == name then 0
    else
      var k := GetNumberModule(modules[1..], name);
      assert forall i :: 1 <= i < |modules| ==> modules[i] == modules[1..][i - 1];
      if k < 0 then -1 else k + 1
  }

  /** Appending modules leaves the answer for a name the list already has unchanged. */
  lemma {:induction false} GetNumberModuleAppendFound(modules: seq<Module>, extra: seq<Module>, name: string)
    requires HasName(modules, name)
    ensures GetNumberModule(modules + extra, name) == GetNumberModule(modules, name)
  {
    var all := modules + extra;
    var k := GetNumberModule(modules, name);
    assert all[k] == modules[k];
    assert HasName(all, name);
    assert forall i :: 0 <= i < |modules| ==> all[i] == modules[i];
  }

  /** A name new to the list is found in the appended part. */
  lemma {:induction false} GetNumberModuleAppendNew(modules: seq<Module>, extra: seq<Module>, name: string)
    requires !HasName(modules, name) && HasName(extra, name)
    ensures GetNumberModule(modules + extra, name) == |modules| + GetNumberModule(extra, name)
  {
    var all := modules + extra;
    var e := GetNumberModule(extra, name);
    assert all[|modules| + e] == extra[e];
    assert HasName(all, name);
    assert forall i :: 0 <= i < |modules| ==> all[i] == modules[i];
    assert forall i :: |modules| <= i < |all| ==> all[i] == extra[i - |modules|];
  }

  /**
    `GetModule` as written: null below 0 and above `Count`, but `Count` itself
    passes the guard and the list read raises.
   */
  function GetModuleAsWritten(modules: seq<Module>, numberModule: int): (r: Completion<Option<Module>>)
    ensures numberModule < 0 || numberModule > |modules| ==> r == Returns(None)
    ensures 0 <= numberModule < |modules| ==> r == Returns(Some(modules[numberModule]))
    ensures numberModule == |modules| ==> r.Throws?
  {
    if numberModule < 0 || numberModule > |modules| then Returns(None)
    else if numberModule < |modules| then Returns(Some(modules[numberModule]))
    else Throws("ArgumentOutOfRangeException")
  }

  /** `GetModule` with the guard corrected to reject `Count`: a module exactly for valid positions. */
  function GetModule(modules: seq<Module>, numberModule: int): (r: Option<Module>)
    ensures r.Some? <==> 0 <= numberModule < |modules|
    ensures r.Some? ==> r.value == modules[numberModule]
  {
    if numberModule < 0 || numberModule >= |modules| then None
    else Some(modules[numberModule])
  }

  /** The guard at `Count` is the only place where the two versions part. */
  lemma GetModuleGuardDefect(modules: seq<Module>, numberModule: int)
    ensures numberModule != |modules| ==> GetModuleAsWritten(modules, numberModule) == Returns(GetModule(modules, numberModule))
    ensures GetModuleAsWritten(modules, |modules|).Throws? && GetModule(modules, |modules|) == None
  {
  }

  /** Every position `GetNumberModule` reports is one the as-written guard serves correctly. */
  lemma GetModuleOfFoundNumber(modules: seq<Module>, name: string)
    requires HasName(modules, name)
    ensures var i := GetNumberModule(modules, name);
            GetModuleAsWritten(modules, i) == Returns(GetModule(modules, i))
            && GetModule(modules, i).Some? && GetModule(modules, i).value.name == name
  {
  }

  /**
    `GetModule(numberModule)` followed by a member access, as every accessor
    below does: the module at a valid position; anywhere else `GetModule`
    yields null, whose member access faults. This reads through the
    corrected guard; as written, `Count` faults in the list read instead.
   */
  function Located(modules: seq<Module>, numberModule: int): (r: Completion<Module>)
    ensures r.Returns? <==> 0 <= numberModule < |modules|
    ensures r.Returns? ==> r.value == modules[numberModule]
    ensures r.Throws? ==> r == Throws("NullReferenceException")
  {
    match GetModule(modules, numberModule)
    case None => Throws("NullReferenceException")
    case Some(m) => Returns(m)
  }

  /**
    `GetModuleName`: the name of the module at a valid position, a fault
    elsewhere; that name leads back to this position when names are distinct.
   */
  function GetModuleName(modules: seq<Module>, numberModule: int): (r: Completion<string>)
    ensures r.Returns? <==> 0 <= numberModule < |modules|
    ensures r.Returns? ==> r.value == modules[numberModule].name
    ensures r.Returns? ==> 0 <= GetNumberModule(modules, r.value) <= numberModule
    ensures r.Returns? && DistinctNames(modules) ==> GetNumberModule(modules, r.value) == numberModule
  {
    match Located(modules, numberModule)
    case Throws(e) => Throws(e)
    case Returns(m) =>
      assert HasName(modules, m.name);
      Returns(m.name)
  }

  /** `ModuleIsReadOnly`: the read-only flag of the module at a valid position, a fault elsewhere. */
  function ModuleIsReadOnly(modules: seq<Module>, numberModule: int): (r: Completion<bool>)
    ensures r.Returns? <==> 0 <= numberModule < |modules|
    ensures r.Returns? ==> r.value == modules[numberModule].readOnly
  {
    match Located(modules, numberModule)
    case Throws(e) => Throws(e)
    case Returns(m) => Returns(m.readOnly)
  }

  /** `ModuleIsWriteOnly`: the write-only flag of the module at a valid position, a fault elsewhere. */
  function ModuleIsWriteOnly(modules: seq<Module>, numberModule: int): (r: Completion<bool>)
    ensures r.Returns? <==> 0 <= numberModule < |modules|
    ensures r.Returns? ==> r.value == modules[numberModule].writeOnly
  {
    match Located(modules, numberModule)
    case Throws(e) => Throws(e)
    case Returns(m) => Returns(m.writeOnly)
  }

  /** `GetHostsAllow`: the allowed-hosts pattern of the module at a valid position, a fault elsewhere. */
  function GetHostsAllow(modules: seq<Module>, numberModule: int): (r: Completion<string>)
    ensures r.Returns? <==> 0 <= numberModule < |modules|
    ensures r.Returns? ==> r.value == modules[numberModule].hostsAllow
  {
    match Located(modules, numberModule)
    case Throws(e) => Throws(e)
    case Returns(m) => Returns(m.hostsAllow)
  }

  /** `GetHostsDeny`: the denied-hosts pattern of the module at a valid position, a fault elsewhere. */
  function GetHostsDeny(modules: seq<Module>, numberModule: int): (r: Completion<string>)
    ensures r.Returns? <==> 0 <= numberModule < |modules|
    ensures r.Returns? ==> r.value == modules[numberModule].hostsDeny
  {
    match Located(modules, numberModule)
    case Throws(e) => Throws(e)
    case Returns(m) => Returns(m.hostsDeny)
  }

  /** `GetAuthUsers`: the user list of the module at a valid position, a fault elsewhere. */
  function GetAuthUsers(modules: seq<Module>, numberModule: int): (r: Completion<string>)
    ensures r.Returns? <==> 0 <= numberModule < |modules|
    ensures r.Returns? ==> r.value == modules[numberModule].authUsers
  {
    match Located(modules, numberModule)
    case Throws(e) => Throws(e)
    case Returns(m) => Returns(m.authUsers)
  }

  /** `GetSecretsFile`: the secrets file name of the module at a valid position, a fault elsewhere. */
  function GetSecretsFile(modules: seq<Module>, numberModule: int): (r: Completion<string>)
    ensures r.Returns? <==> 0 <= numberModule < |modules|
    ensures r.Returns? ==> r.value == modules[numberModule].secretsFile
  {
    match Located(modules, numberModule)
    case Throws(e) => Throws(e)
    case Returns(m) => Returns(m.secretsFile)
  }

  /**
    Looking a module up by name and then reading it by number never faults
    for a name the list has, and reads that module's settings; with distinct
    names it reads the settings of every module so named.
   */
  lemma AccessorsByName(modules: seq<Module>, name: string, i: int)
    requires 0 <= i < |modules| && modules[i].name == name
    requires DistinctNames(modules)
    ensures var n := GetNumberModule(modules, name);
            && n == i
            && GetModuleName(modules, n) == Returns(name)
            && ModuleIsReadOnly(modules, n) == Returns(modules[i].readOnly)
            && ModuleIsWriteOnly(modules, n) == Returns(modules[i].writeOnly)
            && GetHostsAllow(modules, n) == Returns(modules[i].hostsAllow)
            && GetHostsDeny(modules, n) == Returns(modules[i].hostsDeny)
            && GetAuthUsers(modules, n) == Returns(modules[i].authUsers)
            && GetSecretsFile(modules, n) == Returns(modules[i].secretsFile)
  {
    assert HasName(modules, name);
  }

  /** A name the list lacks gives -1, and every accessor faults on -1. */
  lemma AccessorsOfMissingName(modules: seq<Module>, name: string)
    requires !HasName(modules, name)
    ensures var n := GetNumberModule(modules, name);
            && n == -1
            && GetModuleName(modules, n) == Throws("NullReferenceException")
            && ModuleIsReadOnly(modules, n) == Throws("NullReferenceException")
            && ModuleIsWriteOnly(modules, n) == Throws("NullReferenceException")
            && GetHostsAllow(modules, n) == Throws("NullReferenceException")
            && GetHostsDeny(modules, n) == Throws("NullReferenceException")
            && GetAuthUsers(modules, n) == Throws("NullReferenceException")
            && GetSecretsFile(modules, n) == Throws("NullReferenceException")
  {
  }
}

=== FILE: reload.dfy ===
/**
  Loading the same file twice: the second load, started from what the first
  one left, succeeds and leaves everything exactly as the first did.

  The proof runs the two passes side by side. At every line both passes sit in
  the same context and hold modules of the same names at the same positions,
  and each setting either ends equal in both or was never written and still
  holds its starting value in each.
 */
module Reload {
  import opened Nullable
  import opened Text
  import opened Registry
  import opened Configuration

  /** Each field of `x` either agrees with `y`, or neither moved from its start (`x0`, `y0`). */
  predicate FieldWise(x: Module, y: Module, x0: Module, y0: Module) {
    && x.name == y.name
    && (x.path == y.path || (x.path == x0.path && y.path == y0.path))
    && (x.comment == y.comment || (x.comment == x0.comment && y.comment == y0.comment))
    && (x.readOnly == y.readOnly || (x.readOnly == x0.readOnly && y.readOnly == y0.readOnly))
    && (x.writeOnly == y.writeOnly || (x.writeOnly == x0.writeOnly && y.writeOnly == y0.writeOnly))
    && (x.hostsAllow == y.hostsAllow || (x.hostsAllow == x0.hostsAllow && y.hostsAllow == y0.hostsAllow))
    && (x.hostsDeny == y.hostsDeny || (x.hostsDeny == x0.hostsDeny && y.hostsDeny == y0.hostsDeny))
    && (x.authUsers == y.authUsers || (x.authUsers == x0.authUsers && y.authUsers == y0.authUsers))
    && (x.secretsFile == y.secretsFile || (x.secretsFile == x0.secretsFile && y.secretsFile == y0.secretsFile))
  }

  /** The same for the global settings a load writes. */
  predicate GlobalWise(x: Scan, y: Scan, x0: Scan, y0: Scan) {
    && (x.port == y.port || (x.port == x0.port && y.port == y0.port))
    && (x.address == y.address || (x.address == x0.address && y.address == y0.address))
    && (x.options.rsyncPort == y.options.rsyncPort
        || (x.options.rsyncPort == x0.options.rsyncPort && y.options.rsyncPort == y0.options.rsyncPort))
    && (x.options.bindAddress == y.options.bindAddress
        || (x.options.bindAddress == x0.options.bindAddress && y.options.bindAddress == y0.options.bindAddress))
    && (x.options.logFile == y.options.logFile
        || (x.options.logFile == x0.options.logFile && y.options.logFile == y0.options.logFile))
  }

  /**
    The module the first pass holds at position `i` at state `s`, where `e`
    is where it ends: one not yet created counts as the fresh module it will be.
   */
  function Start(s: Scan, e: Scan, i: int): (m: Module)
    requires 0 <= i < |e.modules|
    ensures Extends(s.modules, e.modules) ==> m.name == e.modules[i].name
  {
    if i < |s.modules| then s.modules[i] else NewModule(e.modules[i].name)
  }

  /**
    The first pass is at `s` and ends at `e`; the second is at `u`, which
    holds the final module names and the same context.
   */
  predicate Tracks(s: Scan, u: Scan, e: Scan) {
    && s.Valid() && u.Valid()
    && Extends(s.modules, e.modules)
    && |u.modules| == |e.modules|
    && (forall i :: 0 <= i < |e.modules| ==> u.modules[i].name == e.modules[i].name)
    && u.context == s.context
  }

  /** Two side-by-side stretches compose. */
  lemma FieldWiseCompose(x: Module, y: Module, x1: Module, y1: Module, x0: Module, y0: Module)
    requires FieldWise(x, y, x1, y1) && FieldWise(x1, y1, x0, y0)
    ensures FieldWise(x, y, x0, y0)
  {
  }

  lemma GlobalWiseCompose(x: Scan, y: Scan, x1: Scan, y1: Scan, x0: Scan, y0: Scan)
    requires GlobalWise(x, y, x1, y1) && GlobalWise(x1, y1, x0, y0)
    ensures GlobalWise(x, y, x0, y0)
  {
  }

  /** Started from the other side's end, the side-by-side relation forces equality. */
  lemma FieldWiseSame(x: Module, y: Module, y0: Module)
    requires FieldWise(x, y, y, y0)
    ensures x == y
  {
  }

  lemma GlobalWiseSame(x: Scan, y: Scan, y0: Scan)
    requires GlobalWise(x, y, y, y0)
    ensures x.port == y.port && x.address == y.address && x.options == y.options
  {
  }

  /** A "path" line gives any two modules the same path and nothing else. */
  lemma PathFieldWise(a: Module, b: Module, key: string, value: string)
    requires a.name == b.name && Lower(key) == "path"
    ensures FieldWise(ModuleUpdate(a, key, value), ModuleUpdate(b, key, value), a, b)
  {
    var x := ModuleUpdate(a, key, value);
    var y := ModuleUpdate(b, key, value);
    assert forall i :: 0 <= i < |value| ==> x.path[i] == y.path[i];
  }

  /** So does a line for one of the text settings. */
  lemma TextFieldWise(a: Module, b: Module, key: string, value: string)
    requires a.name == b.name
    requires Lower(key) == "comment" || Lower(key) == "hosts allow" || Lower(key) == "hosts deny" || Lower(key) == "auth users"
    ensures FieldWise(ModuleUpdate(a, key, value), ModuleUpdate(b, key, value), a, b)
  {
  }

  /** And a line for one of the two flags. */
  lemma FlagFieldWise(a: Module, b: Module, key: string, value: string)
    requires a.name == b.name
    requires Lower(key) == "read only" || Lower(key) == "write only"
    ensures FieldWise(ModuleUpdate(a, key, value), ModuleUpdate(b, key, value), a, b)
  {
  }

  /** And a "secrets file" line. */
  lemma SecretsFieldWise(a: Module, b: Module, key: string, value: string)
    requires a.name == b.name && Lower(key) == "secrets file"
    ensures FieldWise(ModuleUpdate(a, key, value), ModuleUpdate(b, key, value), a, b)
  {
    assert ModuleUpdate(a, key, value).secretsFile == FileName(value) == ModuleUpdate(b, key, value).secretsFile;
  }

  /** The same key/value line applied to two modules of one name keeps them side by side. */
  lemma UpdateFieldWise(a: Module, b: Module, key: string, value: string)
    requires a.name == b.name
    ensures FieldWise(ModuleUpdate(a, key, value), ModuleUpdate(b, key, value), a, b)
  {
    var k := Lower(key);
    if k == "path" {
      PathFieldWise(a, b, key, value);
    } else if k == "comment" || k == "hosts allow" || k == "hosts deny" || k == "auth users" {
      TextFieldWise(a, b, key, value);
    } else if k == "read only" || k == "write only" {
      FlagFieldWise(a, b, key, value);
    } else if k == "secrets file" {
      SecretsFieldWise(a, b, key, value);
    } else {
      assert k !in ModuleKeys;
    }
  }

  /**
    A name known to the first `|a|` modules is found at the same place in a
    list that agrees with `a` there; a name new to `a` and sitting just
    after it is found right there.
   */
  lemma FirstIndexAgrees(a: seq<Module>, b: seq<Module>, name: string)
    requires |a| <= |b|
    requires forall i :: 0 <= i < |a| ==> b[i].name == a[i].name
    ensures HasName(a, name) ==> GetNumberModule(b, name) == GetNumberModule(a, name)
    ensures !HasName(a, name) && |a| < |b| && b[|a|].name == name ==> GetNumberModule(b, name) == |a|
  {
    if HasName(a, name) {
      var k := GetNumberModule(a, name);
      assert b[k].name == name;
      assert HasName(b, name);
      assert forall j :: 0 <= j < k ==> b[j].name != name;
    } else if |a| < |b| && b[|a|].name == name {
      assert HasName(b, name);
      assert forall j :: 0 <= j < |a| ==> b[j].name != name;
    }
  }

  /** Both passes keep step on a section header. */
  lemma EnterTracks(s: Scan, u: Scan, e: Scan, name: string)
    requires Tracks(s, u, e)
    requires Extends(Enter(s, name).modules, e.modules)
    ensures Tracks(Enter(s, name), Enter(u, name), e)
    ensures Enter(u, name).modules == u.modules
    ensures forall i :: 0 <= i < |e.modules| ==> Start(Enter(s, name), e, i) == Start(s, e, i)
  {
    var s1 := Enter(s, name);
    FirstIndexAgrees(s.modules, u.modules, name);
    assert HasName(u.modules, name) by {
      var k := s1.context.index;
      assert u.modules[k].name == e.modules[k].name == name;
    }
  }

  /** Both passes keep step on a key/value line inside a module. */
  lemma ModuleLineTracks(s: Scan, u: Scan, e: Scan, k: nat, key: string, value: string)
    requires Tracks(s, u, e) && s.context == InModule(k)
    ensures k < |s.modules| && k < |u.modules|
    ensures var s1 := s.(modules := s.modules[k := ModuleUpdate(s.modules[k], key, value)]);
            var u1 := u.(modules := u.modules[k := ModuleUpdate(u.modules[k], key, value)]);
            && Tracks(s1, u1, e)
            && forall i :: 0 <= i < |e.modules| ==> FieldWise(u1.modules[i], Start(s1, e, i), u.modules[i], Start(s, e, i))
  {
    var s1 := s.(modules := s.modules[k := ModuleUpdate(s.modules[k], key, value)]);
    var u1 := u.(modules := u.modules[k := ModuleUpdate(u.modules[k], key, value)]);
    UpdateFieldWise(u.modules[k], s.modules[k], key, value);
    forall i | 0 <= i < |e.modules|
      ensures FieldWise(u1.modules[i], Start(s1, e, i), u.modules[i], Start(s, e, i))
    {
      if i != k {
        assert u1.modules[i] == u.modules[i] && Start(s1, e, i) == Start(s, e, i);
      }
    }
  }

  /** Both passes keep step on a key/value line outside every section. */
  lemma GlobalLineTracks(s: Scan, u: Scan, e: Scan, key: string, value: string, canOpen: string -> bool)
    requires Tracks(s, u, e) && s.context == Global
    requires GlobalUpdate(s, key, value, canOpen).Ok?
    ensures GlobalUpdate(u, key, value, canOpen).Ok?
    ensures var s1 := GlobalUpdate(s, key, value, canOpen).value;
            var u1 := GlobalUpdate(u, key, value, canOpen).value;
            && Tracks(s1, u1, e) && u1.modules == u.modules && s1.modules == s.modules
            && GlobalWise(u1, s1, u, s)
  {
  }

  /** Nothing moves on either side, so every field stays side by side with its start. */
  lemma Standstill(s: Scan, u: Scan, e: Scan)
    requires Tracks(s, u, e)
    ensures forall i :: 0 <= i < |e.modules| ==> FieldWise(u.modules[i], Start(s, e, i), u.modules[i], Start(s, e, i))
    ensures GlobalWise(u, s, u, s)
  {
  }

  /** One line, side by side. */
  lemma StepTracks(rule: HeaderRule, canOpen: string -> bool, raw: string, s: Scan, u: Scan, e: Scan)
    requires Tracks(s, u, e)
    requires Step(rule, canOpen, s, raw).Ok?
    requires Extends(Step(rule, canOpen, s, raw).value.modules, e.modules)
    ensures Step(rule, canOpen, u, raw).Ok?
    ensures var s1 := Step(rule, canOpen, s, raw).value;
            var u1 := Step(rule, canOpen, u, raw).value;
            && Tracks(s1, u1, e)
            && (forall i :: 0 <= i < |e.modules| ==> FieldWise(u1.modules[i], Start(s1, e, i), u.modules[i], Start(s, e, i)))
            && GlobalWise(u1, s1, u, s)
  {
    ApplyTracks(Classify(rule, raw), raw, canOpen, s, u, e);
  }

  /** One classified line, side by side, whatever its kind. */
  lemma ApplyTracks(line: Line, raw: string, canOpen: string -> bool, s: Scan, u: Scan, e: Scan)
    requires Tracks(s, u, e)
    requires Apply(s, line, raw, canOpen).Ok?
    requires Extends(Apply(s, line, raw, canOpen).value.modules, e.modules)
    ensures Apply(u, line, raw, canOpen).Ok?
    ensures var s1 := Apply(s, line, raw, canOpen).value;
            var u1 := Apply(u, line, raw, canOpen).value;
            && Tracks(s1, u1, e)
            && (forall i :: 0 <= i < |e.modules| ==> FieldWise(u1.modules[i], Start(s1, e, i), u.modules[i], Start(s, e, i)))
            && GlobalWise(u1, s1, u, s)
  {
    match line
    case Skipped => Standstill(s, u, e);
    case ExtraEquals => Standstill(s, u, e);
    case NoEquals =>
    case Header(name) =>
      EnterTracks(s, u, e, name);
      Standstill(s, u, e);
    case Pair(key, value) =>
      match s.context
      case InModule(k) =>
        ModuleLineTracks(s, u, e, k, key, value);
      case Global =>
        GlobalLineTracks(s, u, e, key, value, canOpen);
        Standstill(s, u, e);
  }

  /**
    The whole pass, side by side: the second pass succeeds, keeps the module
    names, and each setting either agrees with the first pass's end or kept
    its starting value on both sides.
   */
  lemma {:induction false} RunTracks(rule: HeaderRule, canOpen: string -> bool, lines: seq<string>, s: Scan, u: Scan, e: Scan)
    requires Tracks(s, u, e)
    requires Run(rule, canOpen, lines, s) == Ok(e)
    ensures Run(rule, canOpen, lines, u).Ok?
    ensures var x := Run(rule, canOpen, lines, u).value;
            && |x.modules| == |e.modules|
            && (forall i :: 0 <= i < |e.modules| ==> FieldWise(x.modules[i], e.modules[i], u.modules[i], Start(s, e, i)))
            && GlobalWise(x, e, u, s)
    decreases |lines|
  {
    if lines == [] {
      Standstill(s, u, e);
    } else {
      var s1 := Step(rule, canOpen, s, lines[0]).value;
      assert Run(rule, canOpen, lines[1..], s1) == Ok(e);
      StepTracks(rule, canOpen, lines[0], s, u, e);
      var u1 := Step(rule, canOpen, u, lines[0]).value;
      RunTracks(rule, canOpen, lines[1..], s1, u1, e);
      var x := Run(rule, canOpen, lines[1..], u1).value;
      assert Run(rule, canOpen, lines, u) == Ok(x);
      forall i | 0 <= i < |e.modules|
        ensures FieldWise(x.modules[i], e.modules[i], u.modules[i], Start(s, e, i))
      {
        FieldWiseCompose(x.modules[i], e.modules[i], u1.modules[i], Start(s1, e, i), u.modules[i], Start(s, e, i));
      }
      GlobalWiseCompose(x, e, u1, s1, u, s);
    }
  }

  /**
    Loading a file a second time, from the store and options the first load
    left, succeeds and changes nothing: every setting the file writes is
    written again with the same value, and every other one was already there.
   */
  lemma ReloadIsIdempotent(rule: HeaderRule, canOpen: string -> bool, store: Store, options: Options,
                           lines: seq<string>, after: Store, afterOptions: Options)
    requires LoadParm(rule, canOpen, store, options, Lines(lines)) == Ok((after, afterOptions))
    ensures LoadParm(rule, canOpen, after, afterOptions, Lines(lines)) == Ok((after, afterOptions))
  {
    var s := Scan(store.modules.GetOr([]), store.port, store.address, options, Global);
    var e := Run(rule, canOpen, lines, s).value;
    var u := Scan(e.modules, e.port, e.address, e.options, Global);
    assert after == Store(Some(e.modules), store.logFile, e.port, e.address) && afterOptions == e.options;
    RunTracks(rule, canOpen, lines, s, u, e);
    var x := Run(rule, canOpen, lines, u).value;
    forall i | 0 <= i < |e.modules|
      ensures x.modules[i] == e.modules[i]
    {
      FieldWiseSame(x.modules[i], e.modules[i], Start(s, e, i));
    }
    assert x.modules == e.modules;
    GlobalWiseSame(x, e, s);
  }
}

=== FILE: scenarios.dfy ===
/** Whole loads of small example files, worked out under both header tests. */
module Scenarios {
  import opened Nullable
  import opened Text
  import opened Registry
  import opened Configuration
  import LoadProperties

  const Fresh: Store := Store(None, None, None, None)
  const Defaults: Options := Options(873, None, None)

  function NoLogs(path: string): bool { false }

  /** The file `port = 8730`, `[backup]`, `path = C:\\data`, `read only = false`. */
  const FileA: seq<string> :=
    [RenderPair("port", "8730"), RenderHeader("backup"), RenderPair("path", "C:\\data"), RenderPair("read only", "false")]

  const Start: Scan := Scan([], None, None, Defaults, Global)
  const AfterPort: Scan := Scan([], Some("8730"), None, Options(8730, None, None), Global)
  const InBackup: Scan := AfterPort.(modules := [NewModule("backup")], context := InModule(0))
  const WithPath: Scan := InBackup.(modules := [NewModule("backup").(path := "C:/data")])
  const Writable: Scan := InBackup.(modules := [Module("backup", "C:/data", "", false, false, "", "", "", "")])

  /** Four lines that each succeed: the read loop ends where the fourth leaves it. */
  lemma RunFour(rule: HeaderRule, lines: seq<string>, s0: Scan, s1: Scan, s2: Scan, s3: Scan, s4: Scan)
    requires |lines| == 4 && s0.Valid() && s1.Valid() && s2.Valid() && s3.Valid()
    requires Step(rule, NoLogs, s0, lines[0]) == Ok(s1) && Step(rule, NoLogs, s1, lines[1]) == Ok(s2)
    requires Step(rule, NoLogs, s2, lines[2]) == Ok(s3) && Step(rule, NoLogs, s3, lines[3]) == Ok(s4)
    ensures Run(rule, NoLogs, lines, s0) == Ok(s4)
  {
    assert lines[3..][0] == lines[3] && lines[3..][1..] == [];
    assert Run(rule, NoLogs, lines[3..], s3) == Ok(s4);
    assert lines[2..][0] == lines[2] && lines[2..][1..] == lines[3..];
    assert Run(rule, NoLogs, lines[2..], s2) == Ok(s4);
    assert lines[1..][0] == lines[1] && lines[1..][1..] == lines[2..];
    assert Run(rule, NoLogs, lines[1..], s1) == Ok(s4);
  }

  /** A first line that succeeds and a second that fails: the read loop fails with the second. */
  lemma RunFailsSecond(rule: HeaderRule, lines: seq<string>, s0: Scan, s1: Scan, e: LoadError)
    requires |lines| >= 2 && s0.Valid() && s1.Valid()
    requires Step(rule, NoLogs, s0, lines[0]) == Ok(s1) && Step(rule, NoLogs, s1, lines[1]) == Fail(e)
    ensures Run(rule, NoLogs, lines, s0) == Fail(e)
  {
    assert lines[1..][0] == lines[1];
  }

  /** A load of a fresh store ends with what the read loop ends with. */
  lemma LoadFresh(rule: HeaderRule, lines: seq<string>, end: Scan)
    requires Run(rule, NoLogs, lines, Start) == Ok(end)
    ensures LoadParm(rule, NoLogs, Fresh, Defaults, Lines(lines)) == Ok((Store(Some(end.modules), None, end.port, end.address), end.options))
  {
  }

  /** A load of a fresh store fails with the read loop's error. */
  lemma LoadFreshFails(rule: HeaderRule, lines: seq<string>, e: LoadError)
    requires Run(rule, NoLogs, lines, Start) == Fail(e)
    ensures LoadParm(rule, NoLogs, Fresh, Defaults, Lines(lines)) == Fail(e)
  {
  }

  lemma PortParses()
    ensures ParseInt32("8730") == Some(8730)
  {
    ParseShowInt(8730);
    assert ShowInt(8730) == "8730";
  }

  lemma PortApplies()
    ensures Apply(Start, Pair("port", "8730"), FileA[0], NoLogs) == Ok(AfterPort)
  {
    PortParses();
  }

  lemma PortLine(rule: HeaderRule)
    ensures Step(rule, NoLogs, Start, FileA[0]) == Ok(AfterPort)
  {
    LoadProperties.ClassifyRenderPair(rule, "port", "8730");
    PortApplies();
  }

  lemma HeaderApplies()
    ensures Apply(AfterPort, Header("backup"), FileA[1], NoLogs) == Ok(InBackup)
  {
    assert !HasName([], "backup");
    assert Enter(AfterPort, "backup").modules == [] + [NewModule("backup")] == [NewModule("backup")];
  }

  lemma HeaderLine()
    ensures Step(Bracketed, NoLogs, AfterPort, FileA[1]) == Ok(InBackup)
  {
    LoadProperties.ClassifyRenderHeaderBracketed("backup");
    HeaderApplies();
  }

  lemma HeaderLineAsWritten()
    ensures Step(AsWritten, NoLogs, AfterPort, FileA[1]) == Fail(MissingValue(FileA[1]))
  {
    assert FileA[1] == RenderHeader("backup");
    LoadProperties.ClassifyRenderHeaderAsWritten("backup");
    assert Step(AsWritten, NoLogs, AfterPort, FileA[1]) == Apply(AfterPort, Classify(AsWritten, FileA[1]), FileA[1], NoLogs);
  }

  lemma PathApplies()
    ensures Apply(InBackup, Pair("path", "C:\\data"), FileA[2], NoLogs) == Ok(WithPath)
  {
    assert Lower("path") == "path";
    assert ReplaceChar("C:\\data", '\\', '/') == "C:/data";
    var m := ModuleUpdate(NewModule("backup"), "path", "C:\\data");
    assert m == NewModule("backup").(path := "C:/data");
    assert InBackup.modules[0 := m] == WithPath.modules;
  }

  lemma PathLine()
    ensures Step(Bracketed, NoLogs, InBackup, FileA[2]) == Ok(WithPath)
  {
    assert FileA[2] == RenderPair("path", "C:\\data");
    LoadProperties.ClassifyRenderPair(Bracketed, "path", "C:\\data");
    PathApplies();
    assert InBackup.Valid();
    assert Step(Bracketed, NoLogs, InBackup, FileA[2]) == Apply(InBackup, Classify(Bracketed, FileA[2]), FileA[2], NoLogs);
  }

  lemma ReadOnlyApplies()
    ensures Apply(WithPath, Pair("read only", "false"), FileA[3], NoLogs) == Ok(Writable)
  {
    assert Lower("read only") == "read only";
    var m := ModuleUpdate(WithPath.modules[0], "read only", "false");
    assert m == Writable.modules[0];
    assert WithPath.modules[0 := m] == Writable.modules;
  }

  lemma ReadOnlyLine()
    ensures Step(Bracketed, NoLogs, WithPath, FileA[3]) == Ok(Writable)
  {
    assert FileA[3] == RenderPair("read only", "false");
    LoadProperties.ClassifyRenderPair(Bracketed, "read only", "false");
    ReadOnlyApplies();
    assert WithPath.Valid();
    assert Step(Bracketed, NoLogs, WithPath, FileA[3]) == Apply(WithPath, Classify(Bracketed, FileA[3]), FileA[3], NoLogs);
  }

  /**
    A port, then one module with a Windows path and the read-only flag turned
    off: the port reaches both places and the path gets forward slashes.
   */
  lemma ScenarioBracketed()
    ensures LoadParm(Bracketed, NoLogs, Fresh, Defaults, Lines(FileA))
            == Ok((Store(Some([Module("backup", "C:/data", "", false, false, "", "", "", "")]), None, Some("8730"), None),
                   Options(8730, None, None)))
  {
    PortLine(Bracketed);
    HeaderLine();
    PathLine();
    ReadOnlyLine();
    RunFour(Bracketed, FileA, Start, AfterPort, InBackup, WithPath, Writable);
    LoadFresh(Bracketed, FileA, Writable);
  }

  /** Read back by name, the loaded module is writable and has no secrets file; one past the end faults. */
  lemma WritableAccessors()
    ensures var n := GetNumberModule(Writable.modules, "backup");
            && n == 0
            && GetModuleName(Writable.modules, n) == Returns("backup")
            && ModuleIsReadOnly(Writable.modules, n) == Returns(false)
            && ModuleIsWriteOnly(Writable.modules, n) == Returns(false)
            && GetSecretsFile(Writable.modules, n) == Returns("")
            && ModuleIsReadOnly(Writable.modules, n + 1) == Throws("NullReferenceException")
  {
    AccessorsByName(Writable.modules, "backup", 0);
  }

  /** After that load the module list is the one the accessors above read. */
  lemma ScenarioAccessors(after: Store, options: Options)
    requires LoadParm(Bracketed, NoLogs, Fresh, Defaults, Lines(FileA)) == Ok((after, options))
    ensures after.modules == Some(Writable.modules)
    ensures ModuleIsReadOnly(after.modules.value, GetNumberModule(after.modules.value, "backup")) == Returns(false)
  {
    ScenarioBracketed();
    WritableAccessors();
  }

  /** The same file under the test as written: "[backup]" has no '=', and the load fails. */
  lemma ScenarioAsWritten()
    ensures LoadParm(AsWritten, NoLogs, Fresh, Defaults, Lines(FileA)) == Fail(MissingValue(RenderHeader("backup")))
  {
    PortLine(AsWritten);
    HeaderLineAsWritten();
    RunFailsSecond(AsWritten, FileA, Start, AfterPort, MissingValue(FileA[1]));
    LoadFreshFails(AsWritten, FileA, MissingValue(FileA[1]));
  }

  /** A secrets file given as a path keeps only its last component, however the key is cased. */
  lemma SecretsFileKeepsFileName(m: Module, key: string)
    requires Lower(key) == "secrets file"
    ensures ModuleUpdate(m, key, "/etc/secrets/rsyncd.secrets").secretsFile == "rsyncd.secrets"
  {
    FileNameOfJoined("/etc/secrets", '/', "rsyncd.secrets");
    assert "/etc/secrets" + ['/'] + "rsyncd.secrets" == "/etc/secrets/rsyncd.secrets";
  }

  /** Any read-only value other than "false" keeps the module read-only; keys are matched case-blind. */
  lemma ReadOnlyNo(m: Module)
    ensures ModuleUpdate(m, "Read Only", "no").readOnly
  {
    assert Lower("Read Only") == "read only";
  }

  /** An unknown key inside a module changes nothing. */
  lemma UnknownModuleKey(m: Module)
    ensures ModuleUpdate(m, "foo", "bar") == m
  {
    assert Lower("foo") == "foo";
  }

  /** Positions just outside the list give no module, including the count itself. */
  lemma NoModuleOutside()
    ensures GetModule([NewModule("backup")], -1) == None
    ensures GetModule([NewModule("backup")], 1) == None
    ensures GetModuleAsWritten([NewModule("backup")], 1).Throws?
  {
  }
}

=== FILE: text.dfy ===
/**
  The .NET string operations the configuration scanner and the helpers rely on,
  with ordinal (culture-free) semantics.
 */
module Text {
  import opened Nullable

  /** The characters `Char.IsWhiteSpace` accepts; `String.Trim()` removes exactly these. */
  predicate IsWhiteSpace(c: char) {
    || ('\t' <= c <= '\r')
    || c == ' '
    || c == '\U{85}'
    || c == '\U{A0}'
    || c == '\U{1680}'
    || ('\U{2000}' <= c <= '\U{200A}')
    || c == '\U{2028}'
    || c == '\U{2029}'
    || c == '\U{202F}'
    || c == '\U{205F}'
    || c == '\U{3000}'
  }

  predicate AllWhiteSpace(s: string) {
    forall i :: 0 <= i < |s| ==> IsWhiteSpace(s[i])
  }

  /** Neither end of `s` is white space. */
  predicate Trimmed(s: string) {
    s == [] || (!IsWhiteSpace(s[0]) && !IsWhiteSpace(s[|s| - 1]))
  }

  /** The first position at or after `k` that is not white space (`|s|` when there is none). */
  function WhiteRunFrom(s: string, k: nat): (n: nat)
    requires k <= |s|
    ensures k <= n <= |s|
    ensures forall i :: k <= i < n ==> IsWhiteSpace(s[i])
    ensures n < |s| ==> !IsWhiteSpace(s[n])
    decreases |s| - k
  {
    if k < |s| && IsWhiteSpace(s[k]) then WhiteRunFrom(s, k + 1) else k
  }

  /** Where the run of white space that ends at `k` begins. */
  function WhiteRunBefore(s: string, k: nat): (n: nat)
    requires k <= |s|
    ensures n <= k
    ensures forall i :: n <= i < k ==> IsWhiteSpace(s[i])
    ensures n > 0 ==> !IsWhiteSpace(s[n - 1])
  {
    if k > 0 && IsWhiteSpace(s[k - 1]) then WhiteRunBefore(s, k - 1) else k
  }

  /**
    `String.Trim()`: `s` is white space up to the first other character, then
    `r`, then white space again, and `r` has no white edge.
   */
  function Trim(s: string): (r: string)
    ensures Trimmed(r)
    ensures var i := WhiteRunFrom(s, 0);
            && i + |r| <= |s| && r == s[i..i + |r|]
            && (forall k :: 0 <= k < i ==> IsWhiteSpace(s[k]))
            && (forall k :: i + |r| <= k < |s| ==> IsWhiteSpace(s[k]))
  {
    var start := WhiteRunFrom(s, 0);
    var end := WhiteRunBefore(s, |s|);
    if start == |s| then []
    else
      assert start < end;
      s[start..end]
  }

  /** A string with no white edge is its own trim, so trimming twice is trimming once. */
  lemma TrimOfTrimmed(s: string)
    requires Trimmed(s)
    ensures Trim(s) == s
  {
    if s != [] {
      assert WhiteRunFrom(s, 0) == 0;
      assert WhiteRunBefore(s, |s|) == |s|;
      assert s[0..|s|] == s;
    }
  }

  lemma TrimIdempotent(s: string)
    ensures Trim(Trim(s)) == Trim(s)
  {
    TrimOfTrimmed(Trim(s));
  }

  /**
    Trimming recovers a core without white edges from any white padding around
    it: the core's first character is where the leading white space stops.
   */
  lemma TrimOfPadded(before: string, core: string, after: string)
    requires AllWhiteSpace(before) && AllWhiteSpace(after) && Trimmed(core)
    ensures Trim(before + core + after) == core
  {
    var s := before + core + after;
    assert forall k :: 0 <= k < |before| ==> s[k] == before[k];
    assert forall k :: |before| + |core| <= k < |s| ==> s[k] == after[k - |before| - |core|];
    if core == [] {
      assert WhiteRunFrom(s, 0) == |s|;
    } else {
      assert s[|before|] == core[0];
      assert s[|before| + |core| - 1] == core[|core| - 1];
      assert WhiteRunFrom(s, 0) == |before|;
      assert WhiteRunBefore(s, |s|) == |before| + |core|;
      assert s[|before|..|before| + |core|] == core;
    }
  }

  /** Trimming leaves nothing exactly when the string is all white space. */
  lemma TrimEmpty(s: string)
    ensures Trim(s) == [] <==> AllWhiteSpace(s)
  {
  }

  /** `String.StartsWith(p)` and `String.EndsWith(p)`, ordinal. */
  predicate StartsWith(s: string, p: string) {
    |p| <= |s| && s[..|p|] == p
  }

  predicate EndsWith(s: string, p: string) {
    |p| <= |s| && s[|s| - |p|..] == p
  }

  /** `String.TrimStart(c)`: drops every leading `c`. */
  function TrimStartChar(s: string, c: char): (r: string)
    ensures |r| <= |s| && r == s[|s| - |r|..]
    ensures forall i :: 0 <= i < |s| - |r| ==> s[i] == c
    ensures r == [] || r[0] != c
  {
    if |s| > 0 && s[0] == c then TrimStartChar(s[1..], c) else s
  }

  /** `String.TrimEnd(c)`: drops every trailing `c`. */
  function TrimEndChar(s: string, c: char): (r: string)
    ensures |r| <= |s| && r == s[..|r|]
    ensures forall i :: |r| <= i < |s| ==> s[i] == c
    ensures r == [] || r[|r| - 1] != c
  {
    if |s| > 0 && s[|s| - 1] == c then TrimEndChar(s[..|s| - 1], c) else s
  }

  /** `Char.ToLower` restricted to ASCII letters. */
  function LowerChar(c: char): char {
    if 'A' <= c <= 'Z' then (c as int + 32) as char else c
  }

  function Lower(s: string): (r: string)
    ensures |r| == |s|
    ensures forall i :: 0 <= i < |s| ==> r[i] == LowerChar(s[i])
  {
    seq(|s|, i requires 0 <= i < |s| => LowerChar(s[i]))
  }

  /** `String.Replace(from, to)` for single characters. */
  function ReplaceChar(s: string, from: char, to: char): (r: string)
    ensures |r| == |s|
    ensures forall i :: 0 <= i < |s| ==> r[i] == (if s[i] == from then to else s[i])
  {
    seq(|s|, i requires 0 <= i < |s| => if s[i] == from then to else s[i])
  }

  /** `String.IndexOf(c)`: the first position of `c`, or -1. */
  function IndexOf(s: string, c: char): (r: int)
    ensures -1 <= r < |s|
    ensures r == -1 <==> c !in s
    ensures r >= 0 ==> s[r] == c && c !in s[..r]
  {
    if |s| == 0 then -1
    else if s[0] == c then 0
    else
      var k := IndexOf(s[1..], c);
      assert s[1..][..k + 1] == s[1..k + 2] by { }
      if k < 0 then -1 else k + 1
  }

  /** `String.LastIndexOf` for either of two characters, or -1. */
  function LastIndexOfEither(s: string, a: char, b: char): (r: int)
    ensures -1 <= r < |s|
    ensures r >= 0 ==> s[r] == a || s[r] == b
    ensures forall i :: r < i < |s| ==> s[i] != a && s[i] != b
  {
    if |s| == 0 then -1
    else if s[|s| - 1] == a || s[|s| - 1] == b then |s| - 1
    else LastIndexOfEither(s[..|s| - 1], a, b)
  }

  /** `String.Split(sep)`: the pieces between the separators, empty ones included. */
  function Split(s: string, sep: char): (parts: seq<string>)
    ensures |parts| == multiset(s)[sep] + 1
    ensures forall k :: 0 <= k < |parts| ==> sep !in parts[k]
    ensures Join(parts, sep) == s
    decreases |s|
  {
    var i := IndexOf(s, sep);
    if i < 0 then
      assert multiset(s)[sep] == 0;
      [s]
    else
      var rest := Split(s[i + 1..], sep);
      assert s == s[..i] + [sep] + s[i + 1..];
      assert multiset(s) == multiset(s[..i]) + multiset([sep]) + multiset(s[i + 1..]);
      assert sep !in multiset(s[..i]);
      [s[..i]] + rest
  }

  /** A line with exactly one separator splits at the first separator into the text before and after it. */
  lemma SplitAtOnlySeparator(s: string, sep: char)
    requires |Split(s, sep)| == 2
    ensures var i := IndexOf(s, sep); 0 <= i && Split(s, sep) == [s[..i], s[i + 1..]]
  {
    var i := IndexOf(s, sep);
    var rest := Split(s[i + 1..], sep);
    assert |rest| == 1;
    assert Join(rest, sep) == rest[0];
  }

  /** Puts `sep` between consecutive pieces; the inverse of `Split`. */
  function Join(parts: seq<string>, sep: char): string
    decreases |parts|
  {
    if |parts| == 0 then ""
    else if |parts| == 1 then parts[0]
    else parts[0] + [sep] + Join(parts[1..], sep)
  }

  /** Splitting a join of separator-free pieces gives the pieces back. */
  lemma {:induction false} SplitJoin(parts: seq<string>, sep: char)
    requires |parts| >= 1
    requires forall k :: 0 <= k < |parts| ==> sep !in parts[k]
    ensures Split(Join(parts, sep), sep) == parts
    decreases |parts|
  {
    var s := Join(parts, sep);
    if |parts| == 1 {
      assert IndexOf(s, sep) == -1;
    } else {
      var tail := Join(parts[1..], sep);
      assert s == parts[0] + [sep] + tail;
      assert s[|parts[0]|] == sep;
      assert s[..|parts[0]|] == parts[0];
      assert IndexOf(s, sep) == |parts[0]|;
      assert s[|parts[0]| + 1..] == tail;
      SplitJoin(parts[1..], sep);
    }
  }

  /**
    `String.Replace(pat, rep)`: scans left to right and replaces each
    non-overlapping occurrence of `pat`.
   */
  function ReplaceAll(s: string, pat: string, rep: string): string
    requires |pat| > 0
    decreases |s|
  {
    if |s| < |pat| then s
    else if s[..|pat|] == pat then rep + ReplaceAll(s[|pat|..], pat, rep)
    else [s[0]] + ReplaceAll(s[1..], pat, rep)
  }

  /** A string in which `pat` never occurs is left as it is. */
  lemma {:induction false} ReplaceAllKeeps(s: string, pat: string, rep: string)
    requires |pat| > 0 && NowhereIn(s, pat)
    ensures ReplaceAll(s, pat, rep) == s
    decreases |s|
  {
    if |s| >= |pat| {
      assert !OccursAt(s, pat, 0);
      OccursAfterFirst(s, pat);
      ReplaceAllKeeps(s[1..], pat, rep);
      assert [s[0]] + s[1..] == s;
    }
  }

  /** `pat` occurs in `s` starting at position `i`. */
  predicate OccursAt(s: string, pat: string, i: int) {
    0 <= i && i + |pat| <= |s| && s[i..i + |pat|] == pat
  }

  ghost predicate NowhereIn(s: string, pat: string) {
    forall i :: !OccursAt(s, pat, i)
  }

  lemma OccursShift(s: string, pat: string, i: int)
    requires |s| > 0 && i >= 0
    ensures OccursAt(s[1..], pat, i) <==> OccursAt(s, pat, i + 1)
  {
    if 0 <= i && i + |pat| <= |s| - 1 {
      assert s[1..][i..i + |pat|] == s[i + 1..i + 1 + |pat|];
    }
  }

  /** Occurrences in `s[1..]` are the occurrences in `s` after its first position. */
  lemma OccursAfterFirst(s: string, pat: string)
    requires |s| > 0
    ensures forall i :: OccursAt(s[1..], pat, i) ==> OccursAt(s, pat, i + 1)
    ensures forall j :: 1 <= j && OccursAt(s, pat, j) ==> OccursAt(s[1..], pat, j - 1)
  {
    forall i | OccursAt(s[1..], pat, i)
      ensures OccursAt(s, pat, i + 1)
    {
      OccursShift(s, pat, i);
    }
    forall j | 1 <= j && OccursAt(s, pat, j)
      ensures OccursAt(s[1..], pat, j - 1)
    {
      OccursShift(s, pat, j - 1);
    }
  }

  lemma ConcatRegroup(a: string, b: string, c: string, d: string)
    ensures a + (b + c + d) == (a + b) + c + d
  {
  }

  lemma ReplaceAllSkip(s: string, pat: string, rep: string)
    requires |pat| > 0 && |s| > 0 && !OccursAt(s, pat, 0)
    ensures ReplaceAll(s, pat, rep) == [s[0]] + ReplaceAll(s[1..], pat, rep)
  {
    if |s| < |pat| {
      assert [s[0]] + s[1..] == s;
    }
  }

  /**
    `String.Replace` works left to right: up to the first occurrence of `pat`
    nothing changes, that occurrence becomes `rep`, and the rest is handled afresh.
   */
  lemma {:induction false} ReplaceAllFirst(s: string, pat: string, rep: string, i: nat)
    requires |pat| > 0 && OccursAt(s, pat, i)
    requires forall j :: 0 <= j < i ==> !OccursAt(s, pat, j)
    ensures ReplaceAll(s, pat, rep) == s[..i] + rep + ReplaceAll(s[i + |pat|..], pat, rep)
    decreases i
  {
    if i == 0 {
      ReplaceAllAtStart(s, pat, rep);
    } else {
      FirstOccurrenceShifts(s, pat, i);
      ReplaceAllFirst(s[1..], pat, rep, i - 1);
      ReplaceAllSkip(s, pat, rep);
      ReplaceAllRegroup(s, pat, rep, i);
    }
  }

  lemma ReplaceAllAtStart(s: string, pat: string, rep: string)
    requires |pat| > 0 && OccursAt(s, pat, 0)
    ensures ReplaceAll(s, pat, rep) == s[..0] + rep + ReplaceAll(s[|pat|..], pat, rep)
  {
    assert s[..|pat|] == s[0..|pat|];
    assert s[..0] + rep == rep;
  }

  lemma FirstOccurrenceShifts(s: string, pat: string, i: nat)
    requires 0 < i && OccursAt(s, pat, i)
    requires forall j :: 0 <= j < i ==> !OccursAt(s, pat, j)
    ensures !OccursAt(s, pat, 0) && OccursAt(s[1..], pat, i - 1)
    ensures forall j :: 0 <= j < i - 1 ==> !OccursAt(s[1..], pat, j)
  {
    OccursShift(s, pat, i - 1);
    forall j | 0 <= j < i - 1
      ensures !OccursAt(s[1..], pat, j)
    {
      OccursShift(s, pat, j);
    }
  }

  /** The step of `ReplaceAllFirst` from `s[1..]` back to `s`. */
  lemma ReplaceAllRegroup(s: string, pat: string, rep: string, i: nat)
    requires |pat| > 0 && 0 < i && i + |pat| <= |s|
    requires ReplaceAll(s, pat, rep) == [s[0]] + ReplaceAll(s[1..], pat, rep)
    requires ReplaceAll(s[1..], pat, rep) == s[1..][..i - 1] + rep + ReplaceAll(s[1..][i - 1 + |pat|..], pat, rep)
    ensures ReplaceAll(s, pat, rep) == s[..i] + rep + ReplaceAll(s[i + |pat|..], pat, rep)
  {
    var t := s[1..];
    assert t[i - 1 + |pat|..] == s[i + |pat|..];
    var tail := ReplaceAll(s[i + |pat|..], pat, rep);
    ConcatRegroup([s[0]], t[..i - 1], rep, tail);
    assert [s[0]] + t[..i - 1] == s[..i];
  }

  predicate ContainsDotDot(s: string) {
    exists i :: 0 <= i < |s| - 1 && s[i] == '.' && s[i + 1] == '.'
  }

  /** A string with no two adjacent '.'s holds ".." nowhere. */
  lemma DotDotNowhere(s: string)
    requires !ContainsDotDot(s)
    ensures NowhereIn(s, "..")
  {
    forall i | 0 <= i && i + 2 <= |s|
      ensures !OccursAt(s, "..", i)
    {
      assert s[i..i + 2] == [s[i], s[i + 1]];
    }
  }

  /**
    Deleting every ".." cannot leave a new one behind, and a string that does
    not start with '.' keeps its first character.
   */
  lemma {:induction false} RemoveDotDot(s: string)
    ensures !ContainsDotDot(ReplaceAll(s, "..", ""))
    ensures |s| > 0 && s[0] != '.' ==> ReplaceAll(s, "..", "") != [] && ReplaceAll(s, "..", "")[0] == s[0]
    decreases |s|
  {
    var r := ReplaceAll(s, "..", "");
    if |s| < 2 {
    } else if s[..2] == ".." {
      RemoveDotDot(s[2..]);
      assert r == ReplaceAll(s[2..], "..", "");
    } else {
      var rest := ReplaceAll(s[1..], "..", "");
      RemoveDotDot(s[1..]);
      assert r == [s[0]] + rest;
      forall i | 0 <= i < |r| - 1
        ensures !(r[i] == '.' && r[i + 1] == '.')
      {
        if i == 0 {
          if s[0] == '.' {
            assert s[..2] == [s[0], s[1]];
            assert rest[0] == s[1];
          }
        } else {
          assert r[i] == rest[i - 1] && r[i + 1] == rest[i];
        }
      }
    }
  }

  /** The number of '.'s `s` starts with. */
  function LeadingDots(s: string): (k: nat)
    ensures k <= |s|
    ensures forall i :: 0 <= i < k ==> s[i] == '.'
    ensures k < |s| ==> s[k] != '.'
  {
    if s == [] || s[0] != '.' then 0 else 1 + LeadingDots(s[1..])
  }

  /**
    Reference meaning of deleting every "..": each maximal run of k '.'s
    shrinks to k % 2 of them, and every other character stays where it was.
   */
  function OddDots(s: string): string
    decreases |s|
  {
    if s == [] then []
    else if s[0] != '.' then [s[0]] + OddDots(s[1..])
    else
      var k := LeadingDots(s);
      (if k % 2 == 1 then "." else "") + OddDots(s[k..])
  }

  /** A run of at least two '.'s is two longer than what is left after its first two. */
  lemma LeadingDotsDropPair(s: string)
    requires |s| >= 2 && s[0] == '.' && s[1] == '.'
    ensures LeadingDots(s) == 2 + LeadingDots(s[2..])
  {
    assert s[1..][1..] == s[2..];
  }

  /** How `OddDots` reads a string that starts with a run of `k` '.'s. */
  lemma OddDotsOfRun(s: string, k: nat)
    requires s != [] && s[0] == '.' && k == LeadingDots(s)
    ensures OddDots(s) == (if k % 2 == 1 then "." else "") + OddDots(s[k..])
  {
  }

  /** Dropping the first two '.'s of a run of at least two leaves the same reduction. */
  lemma OddDotsDropPair(s: string)
    requires |s| >= 2 && s[0] == '.' && s[1] == '.'
    ensures OddDots(s[2..]) == OddDots(s)
  {
    LeadingDotsDropPair(s);
    if LeadingDots(s) == 2 {
      DropWholePair(s);
    } else {
      DropPairOfLongerRun(s);
    }
  }

  /** A run of exactly two '.'s vanishes. */
  lemma DropWholePair(s: string)
    requires |s| >= 2 && s[0] == '.' && LeadingDots(s) == 2
    ensures OddDots(s) == OddDots(s[2..])
  {
    OddDotsOfRun(s, 2);
    assert "" + OddDots(s[2..]) == OddDots(s[2..]);
  }

  lemma ParityOfTwoMore(j: nat)
    ensures (j + 2) % 2 == j % 2
  {
  }

  /** A longer run keeps its parity when two of its '.'s go. */
  lemma DropPairOfLongerRun(s: string)
    requires |s| >= 2 && s[0] == '.' && LeadingDots(s) > 2 && LeadingDots(s) == 2 + LeadingDots(s[2..])
    ensures OddDots(s) == OddDots(s[2..])
  {
    var k := LeadingDots(s);
    var t := s[2..];
    var rest := s[k..];
    var head: string := if k % 2 == 1 then "." else "";
    OddDotsOfRun(s, k);
    assert t[0] == '.';
    OddDotsOfRun(t, k - 2);
    assert t[k - 2..] == rest;
    ParityOfTwoMore(k - 2);
    assert OddDots(s) == head + OddDots(rest);
    assert OddDots(t) == head + OddDots(rest);
  }

  /** `Replace("..", "")` is exactly the run-by-run reduction `OddDots`. */
  lemma {:induction false} ReplaceDotDotByRuns(s: string)
    ensures ReplaceAll(s, "..", "") == OddDots(s)
    decreases |s|
  {
    if |s| < 2 {
      if |s| == 1 {
        assert s[1..] == [];
      }
    } else if s[..2] == ".." {
      assert s[0] == '.' && s[1] == '.';
      ReplaceDotDotByRuns(s[2..]);
      OddDotsDropPair(s);
    } else {
      ReplaceDotDotByRuns(s[1..]);
      if s[0] == '.' {
        assert s[1] != '.' by { assert s[..2] == [s[0], s[1]]; }
        assert LeadingDots(s[1..]) == 0;
      }
    }
  }

  /**
    `Path.GetFileName`: the longest suffix free of the separators '/' and '\',
    that is, what follows the last separator.
   */
  function FileName(path: string): (r: string)
    ensures '/' !in r && '\\' !in r
    ensures EndsWith(path, r)
    ensures |r| < |path| ==> path[|path| - |r| - 1] == '/' || path[|path| - |r| - 1] == '\\'
  {
    var k := LastIndexOfEither(path, '/', '\\');
    SuffixAfterLastSeparator(path, k);
    path[k + 1..]
  }

  /** What follows the last separator holds none, and a separator precedes it unless it is the whole path. */
  lemma SuffixAfterLastSeparator(path: string, k: int)
    requires -1 <= k < |path|
    requires k >= 0 ==> path[k] == '/' || path[k] == '\\'
    requires forall i :: k < i < |path| ==> path[i] != '/' && path[i] != '\\'
    ensures var r := path[k + 1..];
            && '/' !in r && '\\' !in r && EndsWith(path, r)
            && (|r| < |path| ==> path[|path| - |r| - 1] == '/' || path[|path| - |r| - 1] == '\\')
  {
    var r := path[k + 1..];
    assert forall j :: 0 <= j < |r| ==> r[j] == path[k + 1 + j];
  }

  /** Whatever the directory part, the file name is the component after the last separator. */
  lemma FileNameOfJoined(dir: string, sep: char, name: string)
    requires sep == '/' || sep == '\\'
    requires '/' !in name && '\\' !in name
    ensures FileName(dir + [sep] + name) == name
  {
    var path := dir + [sep] + name;
    var r := FileName(path);
    assert path[|dir|] == sep;
    assert forall j :: |dir| < j < |path| ==> path[j] == name[j - |dir| - 1];
    assert forall j :: |path| - |r| <= j < |path| ==> path[j] == r[j - (|path| - |r|)];
    assert |r| <= |name|;
    assert |r| >= |name|;
    assert path[|path| - |name|..] == name;
  }

  predicate IsDigit(c: char) {
    '0' <= c <= '9'
  }

  predicate AllDigits(s: string) {
    forall i :: 0 <= i < |s| ==> IsDigit(s[i])
  }

  /** The number a run of decimal digits denotes. */
  function DigitsValue(ds: string): nat
    requires AllDigits(ds)
    decreases |ds|
  {
    if ds == [] then 0
    else
      assert IsDigit(ds[|ds| - 1]);
      DigitsValue(ds[..|ds| - 1]) * 10 + (ds[|ds| - 1] as int - '0' as int)
  }

  const Int32Min: int := -0x8000_0000
  const Int32Max: int := 0x7FFF_FFFF

  /**
    `Convert.ToInt32(string)` on an already trimmed string: an optional '+' or
    '-', then one or more decimal digits, denoting a value in the 32-bit range.
    `None` stands for the `FormatException` or `OverflowException` it raises.
   */
  function ParseInt32(s: string): (r: Option<int>)
    ensures r.Some? ==> Int32Min <= r.value <= Int32Max
    ensures r.Some? ==> |s| > 0 && (IsDigit(s[0]) || s[0] == '+' || s[0] == '-') && AllDigits(s[1..])
    ensures r.Some? ==> r.value == (if s[0] == '-' then -(DigitsValue(s[1..]) as int)
                                    else if s[0] == '+' then DigitsValue(s[1..]) as int
                                    else DigitsValue(s) as int)
    ensures |s| > 1 && s[0] == '-' && AllDigits(s[1..]) && Int32Min <= -(DigitsValue(s[1..]) as int) ==> r.Some?
    ensures |s| > 1 && s[0] == '+' && AllDigits(s[1..]) && DigitsValue(s[1..]) <= Int32Max ==> r.Some?
    ensures |s| > 0 && AllDigits(s) && DigitsValue(s) <= Int32Max ==> r.Some?
  {
    var signed := |s| > 0 && (s[0] == '-' || s[0] == '+');
    var digits := if signed then s[1..] else s;
    if digits == [] || !AllDigits(digits) then None
    else
      var v: int := if signed && s[0] == '-' then -(DigitsValue(digits) as int) else DigitsValue(digits) as int;
      if Int32Min <= v <= Int32Max then Some(v) else None
  }

  function DigitChar(d: nat): char
    requires d < 10
  {
    ('0' as int + d) as char
  }

  /** Decimal digits of `n`, most significant first, without leading zeros. */
  function ShowNat(n: nat): (r: string)
    ensures |r| > 0 && AllDigits(r)
  {
    if n < 10 then [DigitChar(n)] else ShowNat(n / 10) + [DigitChar(n % 10)]
  }

  /** How `Int32.ToString()` writes a number. */
  function ShowInt(n: int): string {
    if n < 0 then "-" + ShowNat(-n) else ShowNat(n)
  }

  lemma {:induction false} DigitsValueShowNat(n: nat)
    ensures DigitsValue(ShowNat(n)) == n
  {
    if n >= 10 {
      var ds := ShowNat(n);
      assert ds[..|ds| - 1] == ShowNat(n / 10);
      DigitsValueShowNat(n / 10);
    }
  }

  lemma ParseUnsigned(ds: string)
    requires ds != [] && AllDigits(ds) && DigitsValue(ds) <= Int32Max
    ensures ParseInt32(ds) == Some(DigitsValue(ds) as int)
  {
    assert IsDigit(ds[0]);
  }

  lemma ParseNegative(ds: string)
    requires ds != [] && AllDigits(ds) && Int32Min <= -(DigitsValue(ds) as int)
    ensures ParseInt32("-" + ds) == Some(-(DigitsValue(ds) as int))
  {
    assert ("-" + ds)[1..] == ds;
  }

  /** A leading zero does not change the number a run of digits denotes. */
  lemma {:induction false} DigitsValueLeadingZero(ds: string)
    requires AllDigits(ds)
    ensures AllDigits("0" + ds) && DigitsValue("0" + ds) == DigitsValue(ds)
    decreases |ds|
  {
    var zs := "0" + ds;
    assert forall i :: 0 < i < |zs| ==> zs[i] == ds[i - 1];
    if ds != [] {
      assert zs[..|zs| - 1] == "0" + ds[..|ds| - 1];
      DigitsValueLeadingZero(ds[..|ds| - 1]);
    }
  }

  /** `Convert.ToInt32` reads "0" + digits and "+" + digits as the digits alone. */
  lemma ParseIgnoresPlusAndZero(ds: string)
    requires ds != [] && AllDigits(ds)
    ensures ParseInt32("0" + ds) == ParseInt32(ds)
    ensures ParseInt32("+" + ds) == ParseInt32(ds)
  {
    DigitsValueLeadingZero(ds);
    assert ("+" + ds)[1..] == ds;
    assert IsDigit(ds[0]);
  }

  /** Every 32-bit number reads back from its decimal form. */
  lemma ParseShowInt(n: int)
    requires Int32Min <= n <= Int32Max
    ensures ParseInt32(ShowInt(n)) == Some(n)
  {
    if n < 0 {
      DigitsValueShowNat(-n);
      ParseNegative(ShowNat(-n));
    } else {
      DigitsValueShowNat(n);
      ParseUnsigned(ShowNat(n));
    }
  }
}

=== FILE: util.dfy ===
/** The small path, string, array and time helpers of the `Util` class. */
module Util {
  import opened Nullable
  import opened Text

  newtype byte = x: int | 0 <= x < 256

  /**
    `S_ISDIR`: a mode counts as a directory exactly when bit 15 (0x8000)
    is clear; the test reads no other bit.
   */
  function SIsDir(mode: bv32): (r: bool)
    ensures r <==> (mode >> 15) & 1 == 0
  {
    mode & 0x8000 == 0
  }

  /**
    `FindColon`: the position of the first ':' unless a '/' comes before it;
    -1 exactly when every ':' in `s` has a '/' somewhere before it.
   */
  function FindColon(s: string): (r: int)
    ensures r == -1 || (0 <= r < |s| && s[r] == ':' && ':' !in s[..r] && '/' !in s[..r])
    ensures r == -1 <==> forall k :: 0 <= k < |s| && s[k] == ':' ==> '/' in s[..k]
  {
    var index := IndexOf(s, ':');
    if index == -1 then -1
    else
      var slashIndex := IndexOf(s, '/');
      if slashIndex != -1 && slashIndex < index then
        assert forall k :: 0 <= k < |s| && s[k] == ':' ==> s[..k][slashIndex] == '/';
        -1
      else
        assert '/' !in s[..index] by {
          if slashIndex != -1 {
            assert s[..index] == s[..slashIndex][..index];
          }
        }
        index
  }

  /**
    `CleanFileName`: collapses each "\\" to "\", drops trailing '\'s and, when
    `collapseDotDot` is set, deletes every ".." after the first two characters,
    which leaves each run of k '.'s there with k % 2 of them.
    `Substring(0, 2)` raises when fewer than two characters are left.
   */
  function CleanFileName(fileName: string, collapseDotDot: bool): (r: Completion<string>)
    ensures var cleaned := TrimEndChar(ReplaceAll(fileName, "\\\\", "\\"), '\\');
            r.Throws? <==> collapseDotDot && |cleaned| < 2
    ensures r.Returns? && !collapseDotDot ==>
              var collapsed := ReplaceAll(fileName, "\\\\", "\\");
              && |r.value| <= |collapsed| && r.value == collapsed[..|r.value|]
              && (forall k :: |r.value| <= k < |collapsed| ==> collapsed[k] == '\\')
              && (r.value == [] || r.value[|r.value| - 1] != '\\')
    ensures r.Returns? && collapseDotDot ==>
              var cleaned := TrimEndChar(ReplaceAll(fileName, "\\\\", "\\"), '\\');
              && |r.value| >= 2 && r.value[..2] == cleaned[..2] && !ContainsDotDot(r.value[2..])
              && r.value[2..] == OddDots(cleaned[2..])
              && (!ContainsDotDot(cleaned[2..]) ==> r.value == cleaned)
  {
    var cleanedName := TrimEndChar(ReplaceAll(fileName, "\\\\", "\\"), '\\');
    if !collapseDotDot then Returns(cleanedName)
    else if |cleanedName| < 2 then Throws("ArgumentOutOfRangeException")
    else
      var tail := ReplaceAll(cleanedName[2..], "..", "");
      RemoveDotDot(cleanedName[2..]);
      ReplaceDotDotByRuns(cleanedName[2..]);
      assert (cleanedName[..2] + tail)[2..] == tail;
      if !ContainsDotDot(cleanedName[2..]) then
        DotDotNowhere(cleanedName[2..]);
        ReplaceAllKeeps(cleanedName[2..], "..", "");
        assert cleanedName[..2] + cleanedName[2..] == cleanedName;
        Returns(cleanedName[..2] + tail)
      else
        Returns(cleanedName[..2] + tail)
  }

  /**
    A name with no two '\' in a row, no trailing '\' and, when ".." is to be
    collapsed, at least two characters and no ".." after them comes back as it went in.
   */
  lemma CleanFileNameKeepsCleanNames(fileName: string, collapseDotDot: bool)
    requires NowhereIn(fileName, "\\\\")
    requires fileName == [] || fileName[|fileName| - 1] != '\\'
    requires collapseDotDot ==> |fileName| >= 2 && !ContainsDotDot(fileName[2..])
    ensures CleanFileName(fileName, collapseDotDot) == Returns(fileName)
  {
    ReplaceAllKeeps(fileName, "\\\\", "\\");
  }

  /** A name without any '\' has nothing to collapse or trim. */
  lemma NoBackslashIn(name: string)
    requires forall i :: 0 <= i < |name| ==> name[i] != '\\'
    ensures TrimEndChar(ReplaceAll(name, "\\\\", "\\"), '\\') == name
  {
    forall i | 0 <= i && i + 2 <= |name|
      ensures !OccursAt(name, "\\\\", i)
    {
      assert name[i..i + 2][0] == name[i];
    }
    ReplaceAllKeeps(name, "\\\\", "\\");
    var t := TrimEndChar(name, '\\');
    assert |t| == |name| by {
      assert |name| > 0 ==> name[|name| - 1] != '\\';
    }
  }

  /** The run of two '.'s between the separators disappears. */
  lemma DotPairBetweenSeparators()
    ensures OddDots("/../c") == "//c"
  {
    var s := "/../c";
    assert s[1..][..2] == "..";
    assert LeadingDots(s[1..][2..]) == 0;
    assert LeadingDots(s[1..]) == 2;
    assert s[1..][2..] == "/c";
  }

  /** A ".." between two separators goes, and the separators stay: "ab/../c" becomes "ab//c". */
  lemma CleanFileNameDropsDotDot(name: string)
    requires name == "ab/../c"
    ensures CleanFileName(name, true) == Returns("ab//c")
  {
    DotDotExampleClean(name);
    DotDotExampleTail(name);
    CleanFileNameOfClean(name);
  }

  /** The example has no '\' to collapse or trim. */
  lemma DotDotExampleClean(name: string)
    requires name == "ab/../c"
    ensures TrimEndChar(ReplaceAll(name, "\\\\", "\\"), '\\') == name
  {
    assert forall i :: 0 <= i < |name| ==> name[i] != '\\';
    NoBackslashIn(name);
  }

  /** After its first two characters the example loses exactly its ".." pair. */
  lemma DotDotExampleTail(name: string)
    requires name == "ab/../c"
    ensures name[..2] + OddDots(name[2..]) == "ab//c"
  {
    DotPairBetweenSeparators();
    assert name[..2] == "ab" && name[2..] == "/../c";
    assert name[..2] + OddDots(name[2..]) == "ab" + "//c";
  }

  /** With nothing to collapse or trim, only the ".." reduction after two characters is left. */
  lemma CleanFileNameOfClean(name: string)
    requires |name| >= 2 && TrimEndChar(ReplaceAll(name, "\\\\", "\\"), '\\') == name
    ensures CleanFileName(name, true) == Returns(name[..2] + OddDots(name[2..]))
  {
    var r := CleanFileName(name, true);
    assert r.value == r.value[..2] + r.value[2..];
  }

  /** `Ns`: a printable stand-in for a possibly null string. */
  function Ns(s: Option<string>): (r: string)
    ensures s.None? ==> r == "<NULL>"
    ensures s.Some? ==> r == s.value
  {
    if s.None? then "<NULL>" else s.value
  }

  /** Reads back what `Ns` printed, taking "<NULL>" for null. */
  function FromNs(r: string): Option<string> {
    if r == "<NULL>" then None else Some(r)
  }

  /** `Ns` loses nothing except that the string "<NULL>" and null print alike. */
  lemma NsRoundTrip(s: Option<string>)
    ensures FromNs(Ns(s)) == s <==> s != Some("<NULL>")
  {
  }

  /**
    `DeleteLastElement`: copies every element but the last into a new array;
    an empty array makes `new string[-1]` raise.
   */
  method DeleteLastElement(x: seq<string>) returns (r: Completion<seq<string>>)
    ensures r.Throws? <==> |x| == 0
    ensures r.Returns? ==> |r.value| == |x| - 1 && r.value + [x[|x| - 1]] == x
  {
    if |x| == 0 {
      return Throws("OverflowException");
    }
    var a := new string[|x| - 1];
    var i := 0;
    while i < a.Length
      invariant 0 <= i <= a.Length
      invariant a[..i] == x[..i]
    {
      a[i] := x[i];
      i := i + 1;
    }
    assert a[..] + [x[|x| - 1]] == x;
    return Returns(a[..]);
  }

  /**
    `DeleteFirstElement`: copies every element but the first into a new array;
    an empty array makes `new string[-1]` raise.
   */
  method DeleteFirstElement(x: seq<string>) returns (r: Completion<seq<string>>)
    ensures r.Throws? <==> |x| == 0
    ensures r.Returns? ==> |r.value| == |x| - 1 && [x[0]] + r.value == x
  {
    if |x| == 0 {
      return Throws("OverflowException");
    }
    var a := new string[|x| - 1];
    var i := 0;
    while i < a.Length
      invariant 0 <= i <= a.Length
      invariant a[..i] == x[1..i + 1]
    {
      a[i] := x[i + 1];
      i := i + 1;
    }
    assert [x[0]] + a[..] == x;
    return Returns(a[..]);
  }

  /**
    Reference meaning of `MemoryCompare` on two equally long byte runs:
    0 when they are equal, otherwise the difference of the first bytes that differ.
   */
  function Difference(a: seq<byte>, b: seq<byte>): (r: int)
    requires |a| == |b|
    ensures r == 0 <==> a == b
    ensures -255 <= r <= 255
    ensures r != 0 ==> exists k :: 0 <= k < |a| && a[..k] == b[..k] && a[k] != b[k] && r == a[k] as int - b[k] as int
  {
    if |a| == 0 then 0
    else if a[0] != b[0] then
      assert a[..0] == b[..0];
      a[0] as int - b[0] as int
    else
      assert a == [a[0]] + a[1..] && b == [b[0]] + b[1..];
      var d := Difference(a[1..], b[1..]);
      assert d != 0 ==> exists k :: 0 <= k < |a| && a[..k] == b[..k] && a[k] != b[k] && d == a[k] as int - b[k] as int by {
        if d != 0 {
          var j :| 0 <= j < |a| - 1 && a[1..][..j] == b[1..][..j] && a[1..][j] != b[1..][j] && d == a[1..][j] as int - b[1..][j] as int;
          assert a[..j + 1] == [a[0]] + a[1..][..j] && b[..j + 1] == [b[0]] + b[1..][..j];
        }
      }
      d
  }

  /** Comparing the other way round negates the difference. */
  lemma {:induction false} DifferenceAntisymmetric(a: seq<byte>, b: seq<byte>)
    requires |a| == |b|
    ensures Difference(b, a) == -Difference(a, b)
  {
    if |a| > 0 && a[0] == b[0] {
      DifferenceAntisymmetric(a[1..], b[1..]);
    }
  }

  /**
    What the loop of `MemoryCompare` does from step `i` on: it reads `s1[o1 + i]`
    and then `s2[o2 + i]`, faulting on the first position outside either array,
    and stops at the first pair that differs.
   */
  function CompareFrom(s1: seq<byte>, o1: int, s2: seq<byte>, o2: int, length: int, i: nat): Completion<int>
    decreases length - i
  {
    if i >= length then Returns(0)
    else if !(0 <= o1 + i < |s1|) || !(0 <= o2 + i < |s2|) then Throws("IndexOutOfRangeException")
    else if s1[o1 + i] != s2[o2 + i] then Returns(s1[o1 + i] as int - s2[o2 + i] as int)
    else CompareFrom(s1, o1, s2, o2, length, i + 1)
  }

  /** Inside both arrays the loop computes `Difference` of the remaining runs. */
  lemma {:induction false} CompareFromInBounds(s1: seq<byte>, o1: int, s2: seq<byte>, o2: int, length: int, i: nat)
    requires i <= length
    requires 0 <= o1 && o1 + length <= |s1| && 0 <= o2 && o2 + length <= |s2|
    ensures CompareFrom(s1, o1, s2, o2, length, i) == Returns(Difference(s1[o1 + i..o1 + length], s2[o2 + i..o2 + length]))
    decreases length - i
  {
    if i < length {
      var a := s1[o1 + i..o1 + length];
      var b := s2[o2 + i..o2 + length];
      assert a[0] == s1[o1 + i] && b[0] == s2[o2 + i];
      if s1[o1 + i] == s2[o2 + i] {
        assert a[1..] == s1[o1 + i + 1..o1 + length] && b[1..] == s2[o2 + i + 1..o2 + length];
        CompareFromInBounds(s1, o1, s2, o2, length, i + 1);
      }
    }
  }

  /**
    `MemoryCompare`: compares `length` bytes of `arr1` from `off1` with those of
    `arr2` from `off2`. Inside both arrays the answer is `Difference` of the two
    runs; a run that leaves an array faults unless a difference comes first.
   */
  method MemoryCompare(arr1: array<byte>, off1: int, arr2: array<byte>, off2: int, length: int) returns (r: Completion<int>)
    ensures r == CompareFrom(arr1[..], off1, arr2[..], off2, length, 0)
    ensures length <= 0 ==> r == Returns(0)
    ensures length > 0 && (off1 < 0 || off2 < 0 || off1 >= arr1.Length || off2 >= arr2.Length) ==> r.Throws?
    ensures 0 <= off1 && off1 + length <= arr1.Length && 0 <= off2 && off2 + length <= arr2.Length ==>
              && r.Returns?
              && (length > 0 ==> r.value == Difference(arr1[off1..off1 + length], arr2[off2..off2 + length]))
              && (r.value == 0 <==> length <= 0 || arr1[off1..off1 + length] == arr2[off2..off2 + length])
  {
    if 0 <= off1 && off1 + length <= arr1.Length && 0 <= off2 && off2 + length <= arr2.Length && length > 0 {
      CompareFromInBounds(arr1[..], off1, arr2[..], off2, length, 0);
      assert arr1[..][off1..off1 + length] == arr1[off1..off1 + length];
      assert arr2[..][off2..off2 + length] == arr2[off2..off2 + length];
    }
    var i := 0;
    while i < length
      invariant 0 <= i
      invariant length > 0 ==> i <= length
      invariant CompareFrom(arr1[..], off1, arr2[..], off2, length, 0) == CompareFrom(arr1[..], off1, arr2[..], off2, length, i)
    {
      if !(0 <= off1 + i < arr1.Length) || !(0 <= off2 + i < arr2.Length) {
        return Throws("IndexOutOfRangeException");
      }
      if arr1[off1 + i] != arr2[off2 + i] {
        return Returns(arr1[off1 + i] as int - arr2[off2 + i] as int);
      }
      i := i + 1;
    }
    return Returns(0);
  }

  /** A difference at the first byte is reported even though the run would leave both arrays. */
  lemma CompareStopsBeforeFault()
    ensures CompareFrom([1 as byte], 0, [2 as byte], 0, 5, 0) == Returns(-1)
  {
  }

  /**
    How many steps of a copy loop stay inside an array of `length` elements when
    it starts at `off` and runs for `count` steps.
   */
  function Reach(off: int, length: int, count: int): (n: int)
    ensures 0 <= n && (count > 0 ==> n <= count) && (count <= 0 ==> n == 0)
    ensures n > 0 ==> 0 <= off && off + n <= length
    ensures n < count ==> !(0 <= off + n < length)
  {
    if count <= 0 || off < 0 || off >= length then 0
    else if off + count <= length then count
    else length - off
  }

  function Min(a: int, b: int): int {
    if a <= b then a else b
  }

  /**
    `MemoryCopy`: copies `count` bytes forward, one at a time, until a position
    falls outside either array, which faults and leaves the bytes already
    written in place. When `dest` and `source` are one array the copy is
    still faithful as long as the destination does not start inside the
    source run after its start.
   */
  method MemoryCopy(dest: array<byte>, destOffset: int, source: array<byte>, sourceOffset: int, count: int)
    returns (r: Completion<()>)
    modifies dest
    ensures var n := Min(Reach(destOffset, dest.Length, count), Reach(sourceOffset, source.Length, count));
            && (r.Throws? <==> count > 0 && n < count)
            && (dest != source || destOffset <= sourceOffset || sourceOffset + count <= destOffset ==>
                  forall j :: destOffset <= j < destOffset + n ==> dest[j] == old(source[j - destOffset + sourceOffset]))
            && (forall j :: 0 <= j < dest.Length && !(destOffset <= j < destOffset + n) ==> dest[j] == old(dest[j]))
  {
    ghost var n := Min(Reach(destOffset, dest.Length, count), Reach(sourceOffset, source.Length, count));
    var i := 0;
    while i < count
      invariant 0 <= i <= n
      invariant forall j :: 0 <= j < dest.Length && !(destOffset <= j < destOffset + i) ==> dest[j] == old(dest[j])
      invariant dest != source || destOffset <= sourceOffset || sourceOffset + count <= destOffset ==>
                  && (forall j :: destOffset <= j < destOffset + i ==> dest[j] == old(source[j - destOffset + sourceOffset]))
                  && (forall j :: sourceOffset + i <= j < sourceOffset + n ==> source[j] == old(source[j]))
    {
      if !(0 <= sourceOffset + i < source.Length) || !(0 <= destOffset + i < dest.Length) {
        return Throws("IndexOutOfRangeException");
      }
      dest[destOffset + i] := source[sourceOffset + i];
      i := i + 1;
    }
    return Returns(());
  }

  /**
    `CompareModificationTime`: 0 when the two times are within `window` of
    each other, otherwise -1 when the second is later and 1 when it is not.
   */
  function CompareModificationTime(t1: int, t2: int, window: int): (r: int)
    ensures r == 0 <==> (if t1 <= t2 then t2 - t1 else t1 - t2) <= window
    ensures r == -1 <==> t2 > t1 && t2 - t1 > window
    ensures r == 1 <==> t2 <= t1 && t1 - t2 > window
    ensures window >= 0 ==> (r == -1 <==> t2 - t1 > window) && (r == 1 <==> t1 - t2 > window)
  {
    if t2 > t1 then
      if t2 - t1 <= window then 0 else -1
    else if t1 - t2 <= window then 0
    else 1
  }

  /**
    Swapping the two times negates the verdict when the window is not negative;
    with a negative window equal times compare as 1 both ways.
   */
  lemma CompareModificationTimeSwap(t1: int, t2: int, window: int)
    ensures window >= 0 ==> CompareModificationTime(t2, t1, window) == -CompareModificationTime(t1, t2, window)
    ensures window < 0 ==> CompareModificationTime(t1, t1, window) == 1
  {
  }

  /** `Coaleced`: trims a possibly null string, reading null as empty. */
  function Coaleced(value: Option<string>): (r: string)
    ensures Trimmed(r)
    ensures r == [] <==> value.None? || AllWhiteSpace(value.value)
    ensures var v := value.GetOr("");
            exists i :: 0 <= i && i + |r| <= |v| && v == v[..i] + r + v[i + |r|..]
                        && (forall k :: 0 <= k < i ==> IsWhiteSpace(v[k]))
                        && (forall k :: i + |r| <= k < |v| ==> IsWhiteSpace(v[k]))
  {
    var v := value.GetOr("");
    TrimEmpty(v);
    var r := Trim(v);
    var i := WhiteRunFrom(v, 0);
    assert v == v[..i] + r + v[i + |r|..];
    r
  }

  /** Coalescing a coalesced value changes nothing. */
  lemma CoalecedIdempotent(value: Option<string>)
    ensures Coaleced(Some(Coaleced(value))) == Coaleced(value)
  {
    TrimIdempotent(value.GetOr(""));
  }

  /** `IsBlank`: `String.IsNullOrEmpty`; white space alone is not blank. */
  function IsBlank(value: Option<string>): (r: bool)
    ensures r <==> value.None? || |value.value| == 0
  {
    value.None? || value.value == ""
  }

  /** A blank value coalesces to "", but so does a non-blank one made only of white space. */
  lemma BlankCoalescesEmpty(value: Option<string>)
    ensures IsBlank(value) ==> Coaleced(value) == ""
    ensures Coaleced(value) == "" && !IsBlank(value) <==> value.Some? && |value.value| > 0 && AllWhiteSpace(value.value)
  {
  }
}
